=== FILE: README.md ===
# Servo shell orchestration, modelled in Dafny

This project models the window and view orchestration layer of servoshell,
the browser shell that embeds the Servo engine, together with its pure
string helpers. Everything is written as immutable datatypes and pure
transition functions.

- **View collection** (`WebViews`). Each window has a collection of top-level
  views:
  - an id-to-view map;
  - the order in which the views were created;
  - at most one active view.

  Views are added, removed and activated. Removing the active view hands
  activation to the newest survivor.
- **Window** (`Windows`). A window is a collection plus several fields:
  - the `close_scheduled`, `needs_update` and `needs_repaint` flags;
  - a queue of views whose favicon changed;
  - a buffer of commands queued by the user interface;
  - a log of the calls the window made on the engine and the platform window.
- **Commands** (`Commands`). These are the commands the user interface queues
  for a window: `Go`, `Back`, `Forward`, `Reload`, `NewWebView` and
  `CloseWebView`. They are applied in order.
- **Running application** (`Coordinator`). It holds:
  - every open window, kept in the iteration order of the window map;
  - whether exit is scheduled;
  - the next id the engine will give to a new view.

  Each pump of the event loop first drains every window's commands and
  applies them. Then one spin does the following:
  1. it routes each engine event to the window owning the event's view (a
     view no window owns is fatal);
  2. it refreshes each window;
  3. it closes the windows that are done, and schedules exit when none is
     left.
- **Life cycle** (`Lifecycle`). The application goes from `Initializing` to
  `Running` to `ShuttingDown`, driven by `init` and repeated pumps of the
  event loop.
- **Location-bar resolver** (`Parser`, on top of `Text`). It tries, in strict
  order: a direct parse, a `file://` path, an `https://` domain and the
  search page. `ParserExamples` holds the repository's resolver test cases.
- **Tab helpers** (`BrowserTab`). These cover shortening a label with an
  ellipsis, choosing the label, and deciding what a click on a tab does.

The URL parser of the WHATWG URL Standard and the Public Suffix List
lookup `is_reg_domain` are not modelled. They are the two function-valued
fields of `Types.UrlSyntax`, passed in as parameters: every statement about
the resolver holds for any parser and any suffix list.

Engine and platform calls are not performed. Each one is appended to the
window's `log` as an `Effect`, for example `LoadUrl`, `ShowView` or
`RequestRepaint`. The contracts state which effects an operation adds.

### Two consequences of the code worth knowing

An unresolvable `Go` drops more than itself. src/app.rs:139-141 leaves the
command loop with `break`, so every later command of that window's batch
is dropped as well (`Commands.FailedGoDropsRest`,
`Commands.ReloadAfterFailedGoIsDropped`).

The slash clause of the domain heuristic (parser.rs:29) overrides its dot
and space tests: `.a/b` and `a b/c` are domain-like
(`Parser.SlashMakesDomainLike`). Text with a leading dot or an inner space
fails the heuristic only when it has no slash, which is why
`Parser.LeadingDotOrSpaceNotDomainLike` requires slash-free text.

## Model

| member | source | states |
|---|---|---|
| Seqs.Without | src/running_app_state.rs:49 | `retain(!= id)`: the id is gone, every other element stays, nothing is added, and a duplicate-free list stays duplicate-free |
| Seqs.WithoutDeletesPosition | src/running_app_state.rs:49 | on a duplicate-free list, removing an element deletes exactly its position, so the others keep their relative order |
| Seqs.Position | window.rs:166-168 | `position`: the index found holds the element and no earlier index does; None exactly when the element is absent |
| Text.Trim | parser.rs:12 | the result is the input minus a maximal run of leading and of trailing Unicode whitespace |
| Text.TrimIdempotent | parser.rs:12 | trimming twice is trimming once, so the later steps all see the same trimmed text |
| Text.TrimmedIsFixed | parser.rs:12 | text that neither starts nor ends with whitespace is left unchanged by trimming |
| Text.SplitCount | parser.rs:30 | `split('.')` yields one more piece than there are separators, so `count() > 1` means "contains a dot" |
| Text.SplitPiecesFree | parser.rs:30 | no piece of a split contains the separator |
| Text.JoinSplit | parser.rs:30 | joining the pieces with the separator gives back the text |
| Text.Split | parser.rs:30 | `split('.')` always yields at least one piece, even for empty text |
| Text.SubstituteNoToken | parser.rs:43 | `replace("%s", term)` leaves a template without `%s` unchanged |
| Text.Substitute | parser.rs:43 | `replace("%s", term)` returns a template with no `%` unchanged |
| Text.SubstituteAfterPrefix | parser.rs:43 | for a template `prefix + "%s" + suffix` whose prefix has no `%`, the query lands right after the prefix |
| Parser.LocationBarInputToUrl | parser.rs:11-18 | the result is the first candidate that parses, in order: direct, file, domain, search; no result implies the direct parse failed |
| Parser.IsDomainLike | parser.rs:28-31 | domain-like iff (no leading `/` and a `/` somewhere) or (no space, no leading `.` and a `.` somewhere) |
| Parser.TryAsFile | parser.rs:20-25 | only text with a leading `/` yields a candidate, the parse of `file://` + text |
| Parser.TryAsDomain | parser.rs:27-37 | a candidate only when the domain condition holds, the parse of `https://` + text; text with no dot, no slash and no registrable domain yields none |
| Parser.TryAsSearchPage | parser.rs:39-44 | empty text yields none; other text yields the parse of the template with `%s` replaced, and a template with no `%` is parsed as it is |
| Parser.ResolveIgnoresSurroundingWhitespace | parser.rs:12 | the input is trimmed once; resolving trimmed or untrimmed text gives the same answer |
| Parser.ParsedInputPassesThrough | parser.rs:13-14 | text that parses directly is returned unchanged, whatever the later steps would say |
| Parser.FileStep | parser.rs:15-25 | the file step fires only on a leading `/`, and then yields the parse of `file://` + text |
| Parser.DomainStep | parser.rs:16-37 | after the first two steps fail, the domain step fires iff (no space and registrable) or domain-like, and its parse succeeds; it yields `https://` + text |
| Parser.SearchStep | parser.rs:17-44 | the search page is reached only when the first three steps fail; empty text yields nothing, other text yields the parse of the template with `%s` replaced |
| Parser.DomainLikeCharacterized | parser.rs:28-31 | `is_domain_like` is (no leading `/` and contains `/`) or (no space, no leading `.`, contains `.`) |
| Parser.LeadingDotOrSpaceNotDomainLike | parser.rs:28-31 | slash-free text with a leading dot or an inner space is not domain-like |
| Parser.SlashMakesDomainLike | parser.rs:29 | `.a/b` and `a b/c` are domain-like through the slash clause |
| Parser.BlankInputNeverResolves | parser.rs:12-42 | all-whitespace input resolves to nothing, given that the parser rejects the empty string and it is no registrable domain |
| Parser.DefaultSearchPageQuery | src/prefs.rs:36 | the default template puts the query right after `https://duckduckgo.com/html/?q=` |
| ParserExamples.DottedNameGoesToHttps | parser.rs:27-35 | a trimmed, slash-free, space-free name with an inner dot and no leading dot resolves to `https://` + name |
| ParserExamples.PathGoesToHttps | parser.rs:27-35 | trimmed text with a slash past its first character resolves to `https://` + text, whatever its dots |
| ParserExamples.PlainWordGoesToSearch | parser.rs:39-44 | a word with no dot and no slash that is no registrable domain goes to the search page |
| ParserExamples.NotDomainGoesToSearch | parser.rs:11-18 | trimmed text for which no earlier step applies resolves to the search query |
| ParserExamples.DataUrlPassesThrough | test.rs:20 | `data:text/html,a` passes through unchanged |
| ParserExamples.ReadmeIsADomain | test.rs:21 | `README.md` resolves to the parse of `https://README.md` |
| ParserExamples.NicMdPathGoesToHttps | test.rs:23 | `nic.md/ro` resolves to the parse of `https://nic.md/ro` |
| ParserExamples.FooTxtPathGoesToHttps | test.rs:25 | `foo.txt/ro` resolves to the parse of `https://foo.txt/ro` |
| ParserExamples.ResourcesPathGoesToHttps | test.rs:26-29 | `resources/public_domains.txt` resolves to the parse of `https://resources/public_domains.txt` |
| ParserExamples.WordGoesToSearch | test.rs:30 | `dragonfruit` resolves to the duckduckgo query for it |
| ParserExamples.AbsolutePathIsAFile | test.rs:52 | `/dev/null` resolves to `file:///dev/null` |
| ParserExamples.TrailingDotKept | test.rs:70 | a trailing dot is kept in the `https://` candidate |
| ParserExamples.LeadingDotGoesToSearch | test.rs:73-76 | `.leah.chromebooks.lol` goes to the search page |
| ParserExamples.SpacesGoToSearch | test.rs:79-82 | `3.5 kg in lb` goes to the search page whatever the suffix list says |
| ParserExamples.UserLocalDomain | test.rs:85 | `foo/bar` resolves to `https://foo/bar` |
| WebViews.Empty | src/running_app_state.rs:24 | the default collection is valid, empty and has no active view |
| WebViews.Contains | src/running_app_state.rs:66-68 | in a valid collection, holding a view is the same as listing its id in the creation order |
| WebViews.Active | src/running_app_state.rs:70-72 | a view is returned only for an active id that has a view; in a valid collection, exactly when an id is active, and it is that view |
| WebViews.AllInCreationOrder | src/running_app_state.rs:78-82 | enumeration lists exactly the ids of the creation order that have a view |
| WebViews.IsEmpty | src/running_app_state.rs:90-92 | empty iff the map has no keys; in a valid collection, iff the creation order is empty |
| WebViews.PresentIn | src/running_app_state.rs:78-82 | `all_in_creation_order` lists exactly the ids of the order that have a view |
| WebViews.AllInCreationOrderOfValid | src/running_app_state.rs:78-82 | in a valid collection, enumeration in creation order yields the creation order itself |
| WebViews.EmptyIffNoOrder | src/running_app_state.rs:90-92 | a valid collection is empty exactly when its creation order is |
| WebViews.Add | src/running_app_state.rs:40-44 | the id is appended at the end of the creation order and becomes contained; earlier ids and the active id are unchanged; a fresh id keeps the invariant |
| WebViews.Activate | src/running_app_state.rs:94-97 | activation needs the id in the creation order and makes it the active view; the invariant is kept |
| WebViews.VisibilityEffects | src/running_app_state.rs:98-106 | for each view in creation order: the target is shown and focused, every other view hidden and blurred |
| WebViews.ActivateByIndex | src/running_app_state.rs:109-116 | activation by index needs the index in range and activates the id at that position |
| WebViews.Remove | src/running_app_state.rs:48-60 | the id leaves both the map and the order; a view is returned iff it was there; an inactive removal keeps the active id; removing the active id activates the newest survivor, or none if none remain; the invariant is kept |
| WebViews.RemoveKeepsOrder | src/running_app_state.rs:49 | removal deletes exactly the position the id held |
| WebViews.RemoveActiveOfMany | src/running_app_state.rs:52-56 | removing the active view out of two or more leaves a different, present view active |
| WebViews.RemoveSoleView | src/running_app_state.rs:52-57 | removing the only view leaves an empty collection with no active view |
| Windows.New | window.rs:51-60 | a new window is valid, has no views, is due to close, and has all flags clear |
| Windows.ShouldClose | window.rs:103-105 | a window should close iff it holds no views or its close is scheduled |
| Windows.ContainsWebview | window.rs:107-109 | the window contains an id iff the id is one of its views |
| Windows.ActiveWebviewIndex | window.rs:164-169 | no active id gives no index; an index found locates the active id among the views in creation order; an active id that is listed and held always has one |
| Windows.ActiveWebview | window.rs:214-216 | in a valid window, a view is returned iff one is active, and it is the active one |
| Windows.ShouldCloseIff | window.rs:103-105 | a window should close iff it has no views or its close is scheduled |
| Windows.SetNeedsUpdate | window.rs:115-117 | sets `needs_update` and nothing else |
| Windows.SetNeedsRepaint | window.rs:119-121 | sets `needs_repaint` and nothing else |
| Windows.ScheduleClose | window.rs:123-125 | sets `close_scheduled`, so the window should close; every other field is unchanged |
| Windows.AddWebview | window.rs:135-139 | adds the view and sets both flags |
| Windows.ActivateWebview | window.rs:150-155 | delegates to the collection, adds its show/hide calls to the log and sets `needs_update` |
| Windows.ActivateWebviewByIndex | window.rs:157-162 | is `activate_webview` on the id at that position: the log gains exactly its show/hide calls, `needs_update` is set, and nothing else changes |
| Windows.ActiveIndexLocatesActive | window.rs:164-169 | the index is defined iff a view is active, and the creation order holds the active id there |
| Windows.ActivateAtActiveIndex | window.rs:157-169 | activating by the active index keeps the same view active |
| Windows.UpdateAndRequestRepaintIfNecessary | window.rs:171-184 | both flags are cleared; the interface is refreshed iff `needs_update` was set; a repaint is requested iff `needs_repaint` was set or the refresh asked for one; the effects appended are exactly the interface refresh (when consulted) followed by the repaint request (when due), in that order |
| Windows.UiConsultedOnlyWhenNeeded | window.rs:173-176 | without `needs_update` the interface's answer makes no difference |
| Windows.CloseWebview | window.rs:190-200 | an absent id changes nothing; a present one is removed, its controls dismissed, and both flags set |
| Windows.NotifyFaviconChanged | window.rs:202-205 | the id is appended to the favicon queue and `needs_repaint` set |
| Windows.TakePendingFaviconLoads | window.rs:219-221 | returns the queue and leaves it empty |
| Windows.TakeCommands | src/running_app_state.rs:234 | hands over the queued commands, oldest first, and leaves the buffer empty with nothing else changed |
| Windows.FaviconsTakenInOrder | window.rs:202-221 | the queue is handed out in notification order |
| Windows.CreateToplevelWebview | window.rs:76-86 | a view built on the address is appended to the window with both flags set |
| Windows.CreateAndActivateToplevelWebview | window.rs:66-74 | the new view is built first, then appended and made active: the log gains exactly the build call followed by the activation's show/hide calls, and both flags are set |
| Windows.ShowEmbedderControl | window.rs:223-232 | forwards the control to the platform window and sets both flags |
| Windows.HideEmbedderControl | window.rs:234-243 | forwards the hide to the platform window and sets both flags |
| Commands.OnActive | src/app.rs:142-144 | a call is made on the active view, or nothing happens when there is none |
| Commands.ApplyGo | src/app.rs:133-145 | `needs_update` is set first; an unresolvable location ends the batch; otherwise the active view, if any, loads the address |
| Commands.ApplyNewWebView | src/app.rs:162-167 | sets `needs_update`, then builds a view on `resource:///newtab.html` with the engine's next id, appends it to the creation order and makes it active; the log gains exactly the build call and the activation's show/hide calls |
| Commands.ApplyCloseWebView | src/app.rs:168-171 | sets `needs_update` even for an absent id, which otherwise changes nothing; a present view is removed, its removal calls and the dismissal of its controls are logged, and `needs_repaint` is set |
| Commands.ApplyCommand | src/app.rs:132-172 | each command's effect on flags, views and calls: `Go` is ApplyGo, `NewWebView` is ApplyNewWebView on `resource:///newtab.html`, `CloseWebView` is ApplyCloseWebView, `Reload` reloads the active view; `Go` and `Reload` leave `needs_repaint` alone; only a failed `Go` stops the batch; `Back` and `Forward` never touch `needs_update` |
| Commands.ApplyCommands | src/app.rs:131-173 | the batch keeps the window valid and only ever adds views with fresh engine ids; an empty batch leaves the window and the id counter as they were and proceeds; a one-command batch is exactly that command's effect |
| Commands.ApplyCommandsInOrder | src/app.rs:131-132 | commands are applied in buffer order: `a + b` is `a`, then `b` unless `a` broke off |
| Commands.FailedGoDropsRest | src/app.rs:139-141 | after an unresolvable `Go`, no later command of the batch is applied |
| Commands.ReloadAfterFailedGoIsDropped | src/app.rs:139-141 | in `[Go(bad), Reload]` the reload never reaches the view |
| Commands.NavigationOnlyBatch | src/app.rs:146-155 | a batch of `Back`/`Forward` always runs to the end and never marks the interface for refresh |
| Coordinator.Start | src/running_app_state.rs:151-171 | the application starts with no windows, exit not scheduled, and a valid state |
| Coordinator.ScheduleExit | src/running_app_state.rs:194-196 | sets `exit_scheduled` |
| Coordinator.InsertWindow | src/running_app_state.rs:175 | `insert(id, window)` adds the window and keeps every window with another id |
| Coordinator.OpenWindow | src/running_app_state.rs:173-176 | builds and activates a first view on the address, registers the window, and keeps the state valid for a fresh window |
| Coordinator.OpenWindowActivatesFirstView | src/running_app_state.rs:173-176 | the opened window holds exactly the new view, and it is active |
| Coordinator.FindOwner | src/running_app_state.rs:238-248 | the first window in iteration order that holds the view; None iff no window does |
| Coordinator.MaybeWindowForWebviewId | src/running_app_state.rs:238-248 | the window found holds the view, None iff no window does, and in a valid state no other window holds it |
| Coordinator.WindowForWebviewId | src/running_app_state.rs:250-253 | the window found holds the view; it is fatal exactly when no window does |
| Coordinator.OwnerIsUnique | src/running_app_state.rs:238-253 | since windows share no view, the lookup finds the one owner |
| Coordinator.ReplaceKeepsValid | src/running_app_state.rs:227-236 | updating one window that gains only fresh views keeps ids and views disjoint |
| Coordinator.DrainWindow | src/running_app_state.rs:234 | the window's buffer is taken, leaving it empty, and the taken commands are applied in order to the emptied window; validity and fresh ids are kept |
| Coordinator.DrainFrom | src/running_app_state.rs:231-235 | windows before the cursor are untouched; each window from it on is drained once |
| Coordinator.DrainOneKeepsValid | src/running_app_state.rs:233-235 | draining one window of the snapshot drains it once and keeps the state valid |
| Coordinator.ForeachWindowAndInterfaceCommands | src/running_app_state.rs:227-236 | every window present at the start is drained exactly once, keeping its id and the state valid |
| Coordinator.HandleEvent | src/running_app_state.rs:283-405 | status, history, title and load events only set `needs_update`; a new frame only sets `needs_repaint`; close closes the view; favicon, show and hide are exactly the window's own methods; only close touches the views or the close request, and no event touches the command buffer |
| Coordinator.Dispatch | src/running_app_state.rs:283-405 | an event is fatal iff no window holds its view; otherwise only the owning window changes |
| Coordinator.DeliverEvents | src/running_app_state.rs:209 | no events change nothing, one event is one dispatch; windows keep their ids and command buffers, and the state stays valid |
| Coordinator.DeliverEventsInOrder | src/running_app_state.rs:209 | events are delivered in the order raised: `a + b` is `a`, then `b` unless an event of `a` was fatal |
| Coordinator.ClosedAfterUiCloseIsFatal | src/running_app_state.rs:314-316 | after the interface closed a view, an engine `Closed` notification for it finds no owner and is fatal |
| Coordinator.RefreshWindows | src/running_app_state.rs:211-213 | every window is refreshed once and ends with both flags clear |
| Coordinator.KeepOpen | src/running_app_state.rs:217-219 | `retain`: a window survives iff exit is not scheduled and it should not close |
| Coordinator.PruneWindows | src/running_app_state.rs:215-222 | a scheduled exit closes every window; otherwise exactly the windows that should close go; no window left schedules exit |
| Coordinator.SpinEventLoop | src/running_app_state.rs:204-225 | the answer is `!exit_scheduled`, so it is false iff no window is left; the surviving windows are exactly the refreshed windows that should not close, with clear flags, and drained buffers stay empty |
| Coordinator.SurvivorsAreClearAndOpen | src/running_app_state.rs:211-219 | every window left after refreshing and pruning has both flags clear and should not close |
| Coordinator.SurvivorsAreTheOpenWindows | src/running_app_state.rs:211-219 | without a scheduled exit, a refreshed window survives exactly when the window it came from should not close |
| Coordinator.ExitedStateStops | src/running_app_state.rs:217-224 | once exit is scheduled, a spin leaves no window and answers false |
| Coordinator.EventsWithoutWindowsAreFatalOrEmpty | src/running_app_state.rs:250-253 | with no window, any event is about an unknown view |
| Lifecycle.NewApp | src/app.rs:45-62 | a new application is `Initializing` on the new-tab page |
| Lifecycle.FirstViewBuilt | src/app.rs:94 | the first window's one view is built on the initial address and active |
| Lifecycle.OpenFirstWindow | src/app.rs:94-96 | start-up leaves one valid window whose only view, on the initial address, is active |
| Lifecycle.Init | src/app.rs:64-97 | `init` moves to `Running` with the platform window open on the initial address |
| Lifecycle.Pump | src/app.rs:107-122 | outside `Running` the pump does nothing and answers false; a running app drains its windows and spins once, is fatal exactly when the spin is, answers what the spin answers, stays `Running` on the spin's state after a true answer and moves to `ShuttingDown` after a false one |
| Lifecycle.PumpAll | src/app.rs:107-122 | repeated pumping only moves forward: an app not running is left exactly as it is, a running one never returns to `Initializing`, it is still running only if it was, and while it runs the state stays valid |
| Lifecycle.StopIsFinal | src/app.rs:116-120 | once a pump answers false, the application is shutting down and stays so |
| BrowserTab.SaturatingPred | src/user_interface/browser_tab.rs:110 | `saturating_sub(1)`: zero stays zero, anything else drops by one |
| BrowserTab.TruncateWithEllipsis | src/user_interface/browser_tab.rs:108-115 | text that fits is kept; longer text becomes a prefix of it plus one ellipsis, `max_length` characters long (one for a limit of 0) |
| BrowserTab.TruncateBound | src/user_interface/browser_tab.rs:108-115 | the result never exceeds the limit (except the lone ellipsis) nor the input |
| BrowserTab.TruncateIdempotent | src/user_interface/browser_tab.rs:108-115 | shortening twice to the same width is shortening once |
| BrowserTab.TruncateKeepsPrefix | src/user_interface/browser_tab.rs:110-111 | the kept part is always a prefix of the input |
| BrowserTab.TabLabel | src/user_interface/browser_tab.rs:19-23 | a non-empty title wins, else the address, else "New Tab" |
| BrowserTab.TabLabelNonEmpty | src/user_interface/browser_tab.rs:19-23 | the label is empty only for an empty address with no title |
| BrowserTab.DisplayedLabel | src/user_interface/browser_tab.rs:64 | the tab shows at most 16 characters, and a label that fits is shown whole |
| BrowserTab.ClickDecision | src/user_interface/browser_tab.rs:89-93 | any close or middle click closes; otherwise only a plain click on an inactive tab activates |
| BrowserTab.HandleTabClick | src/user_interface/browser_tab.rs:89-93 | a close queues `CloseWebView(id)`; an activation is exactly activating that view in the window (focus moves, the interface is marked for update, queued commands untouched); otherwise nothing changes |
| BrowserTab.CloseNeverActivates | src/user_interface/browser_tab.rs:89-91 | a close click never changes the active view or makes a call |
| BrowserTab.ClickOnActiveTabIsIgnored | src/user_interface/browser_tab.rs:92 | clicking the active tab does nothing |
| BrowserTab.CloseClickThenApplyRemovesView | src/user_interface/browser_tab.rs:89-91 | a close click followed by the next batch removes the view |

## Left out

- **Engine calls.** Servo's own event loop, `WebViewBuilder`, `load`, `reload`, `go_back`, `go_forward`, `show`, `hide`, `focus`, `blur` and `paint` are opaque; each call appears as one of the `Effect` entries of the window's log.
- **Engine view ids.** The engine hands out fresh view ids; the model counts them with `nextViewId`.
- Parser.LocationBarInputToUrl: URL parsing and `is_reg_domain` are parameters. Host lower-casing, percent-encoding and trailing-slash insertion are therefore not proved. The test cases are stated as "the resolver returns the parser's result for this candidate string" (for example `README.md` gives the parse of `https://README.md`). They do not say what that parse serialises to.
- Coordinator.WindowForWebviewId: the `expect` on an unknown view is a `Fatal` result. The process is not aborted. The delegate methods and the whole spin propagate that result. One way to reach it is an engine `Closed` notification for a view the interface already closed (`Coordinator.ClosedAfterUiCloseIsFatal`): the comment at window.rs:186-189 expects that sequence to reach `close_webview`'s early return, but the lookup at src/running_app_state.rs:314-316 fails first. Whether the engine sends such a notification is outside the model.
- WebViews.Activate: the `assert!` on an id outside the creation order is a precondition.
- WebViews.ActivateByIndex: the `expect` on an index out of range is a precondition.
- Windows.UpdateAndRequestRepaintIfNecessary: the platform window's interface update is a boolean parameter. The theme refresh it also does is not modelled.
- Coordinator.HandleEvent: the platform-forwarding delegate methods are one `PlatformRequest` event. These are screen geometry, move, resize, authentication, input handled, cursor, fullscreen, bluetooth, permission, media session and crash (src/running_app_state.rs:275-281, 295-356, 407-415). The event does the window lookup and changes nothing else.
- BrowserTab.TruncateWithEllipsis: the suffix literal at src/user_interface/browser_tab.rs:111 is stored as the three characters `â€¦`, which are the UTF-8 bytes of U+2026 read as Windows-1252. The model reads it as the intended single U+2026 HORIZONTAL ELLIPSIS. Taken literally, the code's truncated result is `max_length + 2` characters long, not `max_length`, and the bounds stated for `TruncateWithEllipsis`, `TruncateBound`, `TruncateIdempotent` and `DisplayedLabel` hold only for the one-character reading.
- **Gamepad handling and the gamepad haptic delegate methods.** This is device I/O (src/running_app_state.rs:262-272, 362-390).
- **The window map's iteration order.** The `HashMap` of windows is a sequence in an arbitrary but fixed order. `insert` of a new id appends. Because windows share no view, the owner lookup does not depend on the order (`Coordinator.OwnerIsUnique`).
- **The user-interface command buffer.** `take_user_interface_commands` lives in the platform window, and that file is not part of this model. The buffer is the window's `commands` field.
- Lifecycle.Init: building the engine, registering the `resource` protocol, logging and WebXR set-up are not modelled. `init` is not guarded by the current state in the code either, so the model does not guard it.
- **Not modelled, because they are platform queries or simple reads with nothing to prove:**
  - `focused_window`, `window(id)`, `servo()`, `repaint_webviews`, `hidpi_scale_factor_changed`, `webview_by_id`, `webviews()`, `values`, `get` and `active_id`;
  - `platform_window_for_webview_id`, which is `window_for_webview_id` under another name.
- **Tab drawing.** egui layout, colours, favicon textures and hover text are left out. The click outcome is a `Clicks` record of the widget responses.
- **Rust ownership.** `Rc`, `RefCell` and `Cell` become plain values passed and returned.
- **Other source files.** The data storage, preferences (except the default search template), the event-loop waker, WebXR support and the process entry points (except the new-tab address) are not part of this model.

=== FILE: app.dfy ===
/** The application's life cycle: it is created `Initializing`, `Init`
    opens the first window and makes it `Running`, and each pump of the
    event loop applies the queued commands and spins the engine once until
    the last window is gone, after which it is `ShuttingDown` for good. */
module Lifecycle {

  import opened Types
  import opened Windows
  import Commands
  import opened Coordinator

  datatype AppState = Initializing | Running(running: RunningState) | ShuttingDown

  datatype App = App(initialUrl: Url, cfg: Commands.Config, state: AppState)

  /** One turn of the platform event loop, as far as the engine's side is
      concerned: the events it raises and, per window, whether refreshing
      the interface asks for a repaint. */
  datatype Tick = Tick(events: seq<EngineEvent>, ui: WindowId -> bool)

  /** A new application starts on the new-tab page and has no engine yet. */
  function NewApp(cfg: Commands.Config): (a: App)
    ensures a.state.Initializing?
    ensures a.initialUrl == Commands.NewTabPageUrl && a.cfg == cfg
  {
    App(Commands.NewTabPageUrl, cfg, Initializing)
  }

  /** The state right after start-up: one window, the platform's, whose
      only view was built on `url` with the engine's first id and is active. */
  ghost predicate FirstWindowOpened(rs: RunningState, platform: Window, url: Url) {
    && Coordinator.Valid(rs)
    && |rs.windows| == 1
    && rs.windows[0].id == platform.id
    && Views(rs.windows[0]) == {0}
    && ActiveWebview(rs.windows[0]) == Some(View(0))
    && BuildView(0, url) in rs.windows[0].log
  }

  lemma OpenFirstWindow(platform: Window, url: Url)
    requires Windows.Valid(platform) && Views(platform) == {}
    ensures FirstWindowOpened(OpenWindow(Start(), platform, url), platform, url)
  {
    RegisterKeepsValid(Start(), platform, url);
    FirstViewBuilt(platform, url);
    var created := CreateAndActivateToplevelWebview(platform, 0, url);
    assert OpenWindow(Start(), platform, url).windows == [created];
  }

  lemma FirstViewBuilt(platform: Window, url: Url)
    requires Windows.Valid(platform) && Views(platform) == {}
    ensures var created := CreateAndActivateToplevelWebview(platform, 0, url);
      && Views(created) == {0}
      && ActiveWebview(created) == Some(View(0))
      && BuildView(0, url) in created.log
  {
    var created := CreateAndActivateToplevelWebview(platform, 0, url);
    assert created.log[|platform.log|] == BuildView(0, url);
  }

  /** Start the engine and open the first platform window on the initial
      address. */
  function Init(a: App, platform: Window): (r: App)
    ensures r.state.Running? && r.initialUrl == a.initialUrl && r.cfg == a.cfg
    ensures !r.state.running.exitScheduled && r.state.running.nextViewId == 1
    ensures Windows.Valid(platform) && Views(platform) == {} ==>
      FirstWindowOpened(r.state.running, platform, a.initialUrl)
  {
    var running := OpenWindow(Start(), platform, a.initialUrl);
    assert Windows.Valid(platform) && Views(platform) == {} ==> FirstWindowOpened(running, platform, a.initialUrl) by {
      if Windows.Valid(platform) && Views(platform) == {} {
        OpenFirstWindow(platform, a.initialUrl);
      }
    }
    a.(state := Running(running))
  }

  /** Apply every window's commands and spin the engine once. Answers
      whether the loop should go on; outside `Running` it does nothing. */
  function Pump(a: App, tick: Tick): (r: Result<(App, bool)>)
    ensures !a.state.Running? ==> r == Ok((a, false))
    ensures r.Ok? ==> r.value.0.initialUrl == a.initialUrl && r.value.0.cfg == a.cfg
    ensures r.Ok? ==> (r.value.1 <==> r.value.0.state.Running?)
    ensures r.Ok? && a.state.Running? && !r.value.1 ==> r.value.0.state.ShuttingDown?
    ensures r.Ok? && r.value.1 ==>
      && |r.value.0.state.running.windows| > 0
      && forall k :: 0 <= k < |r.value.0.state.running.windows| ==>
           var w := r.value.0.state.running.windows[k];
           w.commands == [] && !w.needsUpdate && !w.needsRepaint && !ShouldClose(w)
    ensures r.Ok? && a.state.Running? && a.state.running.exitScheduled ==>
      r.value.0.state.ShuttingDown? && !r.value.1
    ensures r.Ok? && r.value.1 && Coordinator.Valid(a.state.running) ==>
      Coordinator.Valid(r.value.0.state.running)
    ensures a.state.Running? ==>
      var s := SpinEventLoop(ForeachWindowAndInterfaceCommands(a.state.running, a.cfg), tick.events, tick.ui);
      && (r.Fatal? <==> s.Fatal?)
      && (r.Fatal? ==> r.fault == s.fault)
      && (r.Ok? ==> r.value.1 == s.value.1)
      && (r.Ok? && r.value.1 ==> r.value.0 == a.(state := Running(s.value.0)))
  {
    match a.state
    case Running(running) =>
      var drained := ForeachWindowAndInterfaceCommands(running, a.cfg);
      var spun := SpinEventLoop(drained, tick.events, tick.ui);
      if spun.Fatal? then Fatal(spun.fault)
      else if !spun.value.1 then Ok((a.(state := ShuttingDown), false))
      else
        Ok((a.(state := Running(spun.value.0)), true))
    case _ => Ok((a, false))
  }

  /** Pump tick after tick, stopping at the first fatal event. The state
      only moves forward: an app that is not running is left exactly as it
      is, a running one is running or shutting down afterwards, and as long
      as it keeps running its state stays valid. */
  function PumpAll(a: App, ticks: seq<Tick>): (r: Result<App>)
    ensures r.Ok? ==> r.value.initialUrl == a.initialUrl && r.value.cfg == a.cfg
    ensures !a.state.Running? ==> r == Ok(a)
    ensures r.Ok? && a.state.Running? ==> !r.value.state.Initializing?
    ensures r.Ok? && r.value.state.Running? ==> a.state.Running?
    ensures r.Ok? && r.value.state.Running? && Coordinator.Valid(a.state.running) ==>
      Coordinator.Valid(r.value.state.running)
    decreases |ticks|
  {
    if |ticks| == 0 then Ok(a)
    else
      match Pump(a, ticks[0])
      case Fatal(f) => Fatal(f)
      case Ok(pumped) => PumpAll(pumped.0, ticks[1..])
  }

  /** Once a pump has said stop, the application is shutting down and every
      later pump leaves it so. */
  lemma StopIsFinal(a: App, tick: Tick, later: seq<Tick>)
    ensures Pump(a, tick).Ok? && !Pump(a, tick).value.1 ==>
      && !Pump(a, tick).value.0.state.Running?
      && PumpAll(Pump(a, tick).value.0, later) == Ok(Pump(a, tick).value.0)
  {
    if Pump(a, tick).Ok? && !Pump(a, tick).value.1 {
      assert !Pump(a, tick).value.0.state.Running?;
    }
  }
}

=== FILE: collection.dfy ===
/** The per-window set of top-level views: an id-to-view map, the order the
    views were created in, and the one view that is active (shown and
    focused). */
module WebViews {

  import opened Types
  import opened Seqs

  datatype Collection = Collection(
    webviews: map<ViewId, View>,
    creationOrder: seq<ViewId>,
    activeId: Option<ViewId>)

  /** The collection's invariant: the map and the creation order list the
      same views, each once, every view is filed under its own id, and the
      active id names one of them. */
  ghost predicate Valid(c: Collection) {
    && (forall id :: id in c.webviews <==> id in c.creationOrder)
    && (forall id :: id in c.webviews ==> c.webviews[id].id == id)
    && Distinct(c.creationOrder)
    && (c.activeId.Some? ==> c.activeId.value in c.creationOrder)
  }

  function Empty(): (c: Collection)
    ensures Valid(c) && IsEmpty(c) && c.activeId.None?
  {
    Collection(map[], [], None)
  }

  /** In a valid collection, holding a view and listing its id in the
      creation order are the same thing. */
  predicate Contains(c: Collection, id: ViewId)
    ensures Valid(c) ==> (Contains(c, id) <==> id in c.creationOrder)
  {
    id in c.webviews
  }

  /** `webviews.is_empty()`; in a valid collection, exactly when the creation
      order is empty. */
  predicate IsEmpty(c: Collection)
    ensures IsEmpty(c) <==> c.webviews.Keys == {}
    ensures Valid(c) ==> (IsEmpty(c) <==> |c.creationOrder| == 0)
  {
    assert Valid(c) && |c.creationOrder| > 0 ==> c.creationOrder[0] in c.webviews;
    assert |c.webviews| == 0 <==> c.webviews.Keys == {} by {
      if |c.webviews| != 0 {
        var k :| k in c.webviews;
      }
    }
    |c.webviews| == 0
  }

  /** The active view, if there is one and it is still in the map. */
  function Active(c: Collection): (r: Option<View>)
    ensures r.Some? ==> c.activeId.Some? && c.activeId.value in c.webviews
    ensures Valid(c) ==> (r.Some? <==> c.activeId.Some?)
    ensures Valid(c) && r.Some? ==> r.value.id == c.activeId.value
  {
    if c.activeId.Some? && c.activeId.value in c.webviews then Some(c.webviews[c.activeId.value])
    else None
  }

  /** The ids of `order` that are still in the map, in order
      (`all_in_creation_order`). */
  function PresentIn(webviews: map<ViewId, View>, order: seq<ViewId>): (r: seq<ViewId>)
    ensures forall id :: id in r <==> id in order && id in webviews
  {
    if |order| == 0 then []
    else if order[0] in webviews then [order[0]] + PresentIn(webviews, order[1..])
    else PresentIn(webviews, order[1..])
  }

  function AllInCreationOrder(c: Collection): (r: seq<ViewId>)
    ensures forall id :: id in r <==> id in c.creationOrder && id in c.webviews
  {
    PresentIn(c.webviews, c.creationOrder)
  }

  /** In a valid collection every id in the creation order has a view, so
      enumerating in creation order yields the creation order itself. */
  lemma {:induction false} PresentInAll(webviews: map<ViewId, View>, order: seq<ViewId>)
    requires forall id :: id in order ==> id in webviews
    ensures PresentIn(webviews, order) == order
  {
    if |order| > 0 {
      PresentInAll(webviews, order[1..]);
      assert order == [order[0]] + order[1..];
    }
  }

  lemma AllInCreationOrderOfValid(c: Collection)
    requires Valid(c)
    ensures AllInCreationOrder(c) == c.creationOrder
  {
    PresentInAll(c.webviews, c.creationOrder);
  }

  /** A collection with no views has an empty creation order. */
  lemma EmptyIffNoOrder(c: Collection)
    requires Valid(c)
    ensures IsEmpty(c) <==> |c.creationOrder| == 0
  {
    if |c.creationOrder| > 0 {
      assert c.creationOrder[0] in c.webviews;
    }
  }

  /** Append a new view: it goes to the end of the creation order and into
      the map; the active view is not changed. */
  function Add(c: Collection, view: View): (r: Collection)
    ensures Contains(r, view.id)
    ensures |r.creationOrder| == |c.creationOrder| + 1
    ensures r.creationOrder[..|c.creationOrder|] == c.creationOrder
    ensures r.creationOrder[|c.creationOrder|] == view.id
    ensures r.activeId == c.activeId
    ensures forall id :: id != view.id ==> (Contains(r, id) <==> Contains(c, id))
    ensures Valid(c) && !Contains(c, view.id) ==> Valid(r)
  {
    Collection(c.webviews[view.id := view], c.creationOrder + [view.id], c.activeId)
  }

  /** Make `target` the active view. */
  function Activate(c: Collection, target: ViewId): (r: Collection)
    requires target in c.creationOrder
    ensures r.activeId == Some(target)
    ensures r.webviews == c.webviews && r.creationOrder == c.creationOrder
    ensures Valid(c) ==> Valid(r) && Active(r) == Some(View(target))
  {
    Collection(c.webviews, c.creationOrder, Some(target))
  }

  /** The show/focus and hide/blur calls an activation makes, one pair per
      view of `order`, in order. */
  function VisibilityEffects(order: seq<ViewId>, target: ViewId): (r: seq<Effect>)
    ensures |r| == 2 * |order|
    ensures forall k :: 0 <= k < |order| ==>
      if order[k] == target then r[2 * k] == ShowView(target) && r[2 * k + 1] == FocusView(target)
      else r[2 * k] == HideView(order[k]) && r[2 * k + 1] == BlurView(order[k])
  {
    if |order| == 0 then []
    else
      var head := if order[0] == target then [ShowView(target), FocusView(target)]
                  else [HideView(order[0]), BlurView(order[0])];
      var rest := VisibilityEffects(order[1..], target);
      assert forall k :: 1 <= k < |order| ==> order[k] == order[1..][k - 1];
      head + rest
  }

  /** What activating `target` asks of the views: exactly `target` is shown
      and focused, every other view is hidden and blurred, in creation order. */
  function ActivationEffects(c: Collection, target: ViewId): seq<Effect> {
    VisibilityEffects(AllInCreationOrder(c), target)
  }

  /** Activate the view at position `index` of the creation order. */
  function ActivateByIndex(c: Collection, index: nat): (r: Collection)
    requires index < |c.creationOrder|
    ensures r.activeId == Some(c.creationOrder[index])
    ensures r.webviews == c.webviews && r.creationOrder == c.creationOrder
    ensures Valid(c) ==> Valid(r)
  {
    Activate(c, c.creationOrder[index])
  }

  /** The collection right after the view is taken out of both the map and
      the creation order, with the active id cleared if it was that view. */
  function Detached(c: Collection, id: ViewId): Collection {
    Collection(
      c.webviews - {id},
      Without(c.creationOrder, id),
      if c.activeId == Some(id) then None else c.activeId)
  }

  /** Whether removing `id` hands activation to the newest survivor. */
  predicate RemovalReactivates(c: Collection, id: ViewId) {
    c.activeId == Some(id) && |Without(c.creationOrder, id)| > 0
  }

  /** Remove a view by id, returning it if it was there. When the removed view
      was the active one, the newest remaining view becomes active. */
  function Remove(c: Collection, id: ViewId): (r: (Collection, Option<View>))
    ensures r.1.Some? <==> Contains(c, id)
    ensures r.1.Some? ==> r.1.value == c.webviews[id]
    ensures !Contains(r.0, id) && id !in r.0.creationOrder
    ensures forall other :: other != id ==> (Contains(r.0, other) <==> Contains(c, other))
    ensures forall other :: other != id ==> (other in r.0.creationOrder <==> other in c.creationOrder)
    ensures r.0.creationOrder == Without(c.creationOrder, id)
    ensures c.activeId != Some(id) ==> r.0.activeId == c.activeId
    ensures c.activeId == Some(id) && |r.0.creationOrder| > 0 ==>
      r.0.activeId == Some(r.0.creationOrder[|r.0.creationOrder| - 1])
    ensures c.activeId == Some(id) && |r.0.creationOrder| == 0 ==> r.0.activeId.None?
    ensures Valid(c) ==> Valid(r.0)
  {
    var removed := if id in c.webviews then Some(c.webviews[id]) else None;
    var detached := Detached(c, id);
    if RemovalReactivates(c, id) then
      var order := detached.creationOrder;
      (Activate(detached, order[|order| - 1]), removed)
    else
      (detached, removed)
  }

  /** The show/hide calls a removal makes: none unless the active view was
      removed and another view is left to take its place. */
  function RemovalEffects(c: Collection, id: ViewId): seq<Effect> {
    if RemovalReactivates(c, id) then
      var d := Detached(c, id);
      ActivationEffects(d, d.creationOrder[|d.creationOrder| - 1])
    else []
  }

  /** In a duplicate-free creation order, removal deletes exactly the
      position the view held; all other views keep their relative order. */
  lemma RemoveKeepsOrder(c: Collection, i: nat)
    requires Valid(c)
    requires i < |c.creationOrder|
    ensures Remove(c, c.creationOrder[i]).0.creationOrder
         == c.creationOrder[..i] + c.creationOrder[i + 1..]
  {
    WithoutDeletesPosition(c.creationOrder, i);
  }

  /** Removing the active view of a collection with at least two views
      leaves exactly one active view: the most recently created survivor. */
  lemma RemoveActiveOfMany(c: Collection)
    requires Valid(c)
    requires c.activeId.Some?
    requires |c.creationOrder| > 1
    ensures var r := Remove(c, c.activeId.value).0;
      && r.activeId.Some?
      && r.activeId.value in r.creationOrder
      && r.activeId.value != c.activeId.value
      && |r.creationOrder| == |c.creationOrder| - 1
  {
    var id := c.activeId.value;
    var i :| 0 <= i < |c.creationOrder| && c.creationOrder[i] == id;
    WithoutDeletesPosition(c.creationOrder, i);
  }

  /** Removing the only view leaves no active view and an empty collection. */
  lemma RemoveSoleView(c: Collection)
    requires Valid(c)
    requires |c.creationOrder| == 1
    ensures var r := Remove(c, c.creationOrder[0]).0;
      r.activeId.None? && IsEmpty(r) && |r.creationOrder| == 0
  {
    var r := Remove(c, c.creationOrder[0]).0;
    EmptyIffNoOrder(r);
    assert forall x :: x in c.creationOrder ==> x == c.creationOrder[0];
  }
}

=== FILE: commands.dfy ===
/** Applying the commands the user interface queued for one window, in the
    order they were queued. A `Go` whose text cannot be resolved ends the
    whole batch: the commands after it in the same batch are dropped. */
module Commands {

  import opened Types
  import opened Windows
  import Parser
  import WebViews

  /** The page a new tab opens on. */
  const NewTabPageUrl: Url := Url("resource:///newtab.html")

  /** Fixed for the life of the process: the search page template and the
      engine's address parser. */
  datatype Config = Config(searchpage: string, urls: UrlSyntax)

  /** A window after some commands, the engine's next free view id, and
      whether the batch goes on. */
  datatype Step = Step(window: Window, nextViewId: ViewId, proceed: bool)

  function Resolve(location: string, cfg: Config): Option<Url> {
    Parser.LocationBarInputToUrl(location, cfg.searchpage, cfg.urls)
  }

  /** Every view of `w` has an id below `bound`, the next id the engine will
      hand out. */
  ghost predicate IdsBelow(w: Window, bound: ViewId) {
    forall v :: v in Views(w) ==> v < bound
  }

  /** What a command may do to the view set: drop views and add views with
      ids from `[next, next')`. */
  ghost predicate ViewsGrowFresh(w: Window, r: Window, next: ViewId, next': ViewId) {
    forall v :: v in Views(r) ==> v in Views(w) || next <= v < next'
  }

  /** The window's identity, close request, favicon queue and command buffer
      are not touched by any command. */
  ghost predicate Untouched(w: Window, r: Window) {
    && r.id == w.id
    && r.closeScheduled == w.closeScheduled
    && r.pendingFaviconLoads == w.pendingFaviconLoads
    && r.commands == w.commands
  }

  /** The active view, if any, receives `call`; with no active view nothing
      happens. */
  function OnActive(w: Window, call: ViewId -> Effect): (r: Window)
    ensures ActiveWebview(w).None? ==> r == w
    ensures ActiveWebview(w).Some? ==> r == w.(log := w.log + [call(ActiveWebview(w).value.id)])
  {
    match ActiveWebview(w)
    case None => w
    case Some(view) => w.(log := w.log + [call(view.id)])
  }

  /** `Go`: mark the interface for refresh, then load the resolved address
      into the active view; an unresolvable location breaks off the batch. */
  function ApplyGo(w: Window, location: string, cfg: Config, next: ViewId): (r: Step)
    ensures r.window.needsUpdate && r.nextViewId == next
    ensures r.window.webviews == w.webviews && Untouched(w, r.window)
    ensures r.window.needsRepaint == w.needsRepaint
    ensures !r.proceed <==> Resolve(location, cfg).None?
    ensures Resolve(location, cfg).Some? && ActiveWebview(w).Some? ==>
      r.window.log == w.log + [LoadUrl(ActiveWebview(w).value.id, Resolve(location, cfg).value)]
    ensures Resolve(location, cfg).None? || ActiveWebview(w).None? ==> r.window.log == w.log
  {
    var marked := SetNeedsUpdate(w);
    var resolved := Resolve(location, cfg);
    if resolved.None? then Step(marked, next, false)
    else Step(OnActive(marked, (v: ViewId) => LoadUrl(v, resolved.value)), next, true)
  }

  /** `NewWebView`: mark the interface for refresh, then build a view on the
      new-tab page with the engine's next id and make it active. */
  function ApplyNewWebView(w: Window, next: ViewId): (r: Step)
    ensures r.proceed && r.nextViewId == next + 1
    ensures r.window.needsUpdate && r.window.needsRepaint
    ensures ContainsWebview(r.window, next) && r.window.webviews.activeId == Some(next)
    ensures Views(r.window) == Views(w) + {next}
    ensures r.window.webviews.creationOrder == w.webviews.creationOrder + [next]
    ensures |r.window.log| > |w.log| && r.window.log[..|w.log|] == w.log
    ensures r.window.log[|w.log|] == BuildView(next, NewTabPageUrl)
    ensures r.window.log == w.log + [BuildView(next, NewTabPageUrl)]
      + WebViews.ActivationEffects(CreateToplevelWebview(w, next, NewTabPageUrl).webviews, next)
    ensures Untouched(w, r.window)
    ensures Valid(w) && IdsBelow(w, next) ==> Valid(r.window) && IdsBelow(r.window, next + 1)
  {
    assert SetNeedsUpdate(w).log == w.log;
    Step(CreateAndActivateToplevelWebview(SetNeedsUpdate(w), next, NewTabPageUrl), next + 1, true)
  }

  /** `CloseWebView`: mark the interface for refresh even when the id is not
      there, then close the view. */
  function ApplyCloseWebView(w: Window, id: ViewId, next: ViewId): (r: Step)
    ensures r.proceed && r.nextViewId == next
    ensures r.window.needsUpdate
    ensures !ContainsWebview(r.window, id) && Views(r.window) == Views(w) - {id}
    ensures ContainsWebview(w, id) ==>
      && r.window.needsRepaint
      && r.window.webviews == WebViews.Remove(w.webviews, id).0
      && r.window.log == w.log + WebViews.RemovalEffects(w.webviews, id) + [DismissControls(id)]
    ensures !ContainsWebview(w, id) ==> r.window == SetNeedsUpdate(w)
    ensures Untouched(w, r.window)
    ensures Valid(w) ==> Valid(r.window)
  {
    Step(CloseWebview(SetNeedsUpdate(w), id), next, true)
  }

  function ApplyCommand(w: Window, cmd: Command, cfg: Config, next: ViewId): (r: Step)
    ensures Untouched(w, r.window)
    ensures next <= r.nextViewId <= next + 1
    ensures ViewsGrowFresh(w, r.window, next, r.nextViewId)
    ensures Valid(w) && IdsBelow(w, next) ==> Valid(r.window) && IdsBelow(r.window, r.nextViewId)
    ensures !r.proceed <==> cmd.Go? && Resolve(cmd.location, cfg).None?
    ensures cmd.Go? ==> r == ApplyGo(w, cmd.location, cfg, next)
    ensures cmd.Go? ==> r.window.needsUpdate && r.window.webviews == w.webviews
    ensures cmd.Go? || cmd.Reload? ==> r.window.needsRepaint == w.needsRepaint
    ensures cmd.Go? && Resolve(cmd.location, cfg).Some? && ActiveWebview(w).Some? ==>
      r.window.log == w.log + [LoadUrl(ActiveWebview(w).value.id, Resolve(cmd.location, cfg).value)]
    ensures cmd.Go? && (Resolve(cmd.location, cfg).None? || ActiveWebview(w).None?) ==>
      r.window.log == w.log
    ensures cmd.Back? || cmd.Forward? ==>
      r.window.needsUpdate == w.needsUpdate && r.window.webviews == w.webviews
    ensures cmd.Back? ==> r.window == OnActive(w, (v: ViewId) => GoBack(v, 1))
    ensures cmd.Forward? ==> r.window == OnActive(w, (v: ViewId) => GoForward(v, 1))
    ensures cmd.Reload? ==>
      && r.window.needsUpdate && r.window.webviews == w.webviews
      && r.window.log == (if ActiveWebview(w).Some? then w.log + [ReloadView(ActiveWebview(w).value.id)] else w.log)
    ensures cmd.NewWebView? ==> r == ApplyNewWebView(w, next)
    ensures cmd.NewWebView? ==>
      && r.window.needsUpdate && r.window.needsRepaint
      && r.window.webviews.creationOrder == w.webviews.creationOrder + [next] && r.nextViewId == next + 1
      && ContainsWebview(r.window, next) && r.window.webviews.activeId == Some(next)
      && Views(r.window) == Views(w) + {next}
      && |r.window.log| > |w.log| && r.window.log[|w.log|] == BuildView(next, NewTabPageUrl)
    ensures !cmd.NewWebView? ==> r.nextViewId == next
    ensures cmd.CloseWebView? ==>
      && r.window.needsUpdate
      && !ContainsWebview(r.window, cmd.id)
      && Views(r.window) == Views(w) - {cmd.id}
    ensures cmd.CloseWebView? && ContainsWebview(w, cmd.id) ==>
      && r.window.needsRepaint
      && r.window.webviews == WebViews.Remove(w.webviews, cmd.id).0
      && r.window.log == w.log + WebViews.RemovalEffects(w.webviews, cmd.id) + [DismissControls(cmd.id)]
    ensures cmd.CloseWebView? && !ContainsWebview(w, cmd.id) ==> r.window == SetNeedsUpdate(w)
    ensures cmd.CloseWebView? ==> r == ApplyCloseWebView(w, cmd.id, next)
  {
    match cmd
    case Go(location) => ApplyGo(w, location, cfg, next)
    case Back => Step(OnActive(w, (v: ViewId) => GoBack(v, 1)), next, true)
    case Forward => Step(OnActive(w, (v: ViewId) => GoForward(v, 1)), next, true)
    case Reload => Step(OnActive(SetNeedsUpdate(w), (v: ViewId) => ReloadView(v)), next, true)
    case NewWebView => ApplyNewWebView(w, next)
    case CloseWebView(id) => ApplyCloseWebView(w, id, next)
  }

  /** Apply a batch in order, stopping at the first `Go` that fails to
      resolve. */
  function ApplyCommands(w: Window, cmds: seq<Command>, cfg: Config, next: ViewId): (r: Step)
    ensures Untouched(w, r.window)
    ensures next <= r.nextViewId
    ensures ViewsGrowFresh(w, r.window, next, r.nextViewId)
    ensures Valid(w) && IdsBelow(w, next) ==> Valid(r.window) && IdsBelow(r.window, r.nextViewId)
    ensures r.nextViewId <= next + |cmds|
    ensures |cmds| == 0 ==> r == Step(w, next, true)
    ensures |cmds| == 1 ==> r == ApplyCommand(w, cmds[0], cfg, next)
    decreases |cmds|
  {
    if |cmds| == 0 then Step(w, next, true)
    else
      var step := ApplyCommand(w, cmds[0], cfg, next);
      if !step.proceed then step
      else ApplyCommands(step.window, cmds[1..], cfg, step.nextViewId)
  }

  /** A batch is applied front to back: applying `a + b` is applying `a`
      and then, unless `a` broke off, applying `b` to the result. */
  lemma {:induction false} ApplyCommandsInOrder(w: Window, a: seq<Command>, b: seq<Command>, cfg: Config, next: ViewId)
    ensures var first := ApplyCommands(w, a, cfg, next);
      ApplyCommands(w, a + b, cfg, next)
        == if first.proceed then ApplyCommands(first.window, b, cfg, first.nextViewId) else first
    decreases |a|
  {
    if |a| > 0 {
      assert (a + b)[0] == a[0];
      assert (a + b)[1..] == a[1..] + b;
      var step := ApplyCommand(w, a[0], cfg, next);
      if step.proceed {
        ApplyCommandsInOrder(step.window, a[1..], b, cfg, step.nextViewId);
      }
    } else {
      assert a + b == b;
    }
  }

  /** A `Go` that cannot be resolved marks the interface for refresh and
      drops every later command of the same batch. */
  lemma FailedGoDropsRest(w: Window, location: string, rest: seq<Command>, cfg: Config, next: ViewId)
    requires Resolve(location, cfg).None?
    ensures ApplyCommands(w, [Go(location)] + rest, cfg, next) == Step(SetNeedsUpdate(w), next, false)
  {
  }

  /** So in the batch `[Go(bad), Reload]` the reload never reaches the view. */
  lemma ReloadAfterFailedGoIsDropped(w: Window, bad: string, cfg: Config, next: ViewId)
    requires Resolve(bad, cfg).None?
    ensures ApplyCommands(w, [Go(bad), Reload], cfg, next).window.log == w.log
    ensures !ApplyCommands(w, [Go(bad), Reload], cfg, next).proceed
  {
    FailedGoDropsRest(w, bad, [Reload], cfg, next);
    assert [Go(bad), Reload] == [Go(bad)] + [Reload];
  }

  /** A batch with no `Go` in it is always applied to the end, and neither
      `Back` nor `Forward` ever marks the interface for refresh. */
  lemma {:induction false} NavigationOnlyBatch(w: Window, cmds: seq<Command>, cfg: Config, next: ViewId)
    requires forall k :: 0 <= k < |cmds| ==> cmds[k].Back? || cmds[k].Forward?
    ensures ApplyCommands(w, cmds, cfg, next).proceed
    ensures ApplyCommands(w, cmds, cfg, next).window.needsUpdate == w.needsUpdate
    ensures ApplyCommands(w, cmds, cfg, next).window.webviews == w.webviews
    decreases |cmds|
  {
    if |cmds| > 0 {
      var step := ApplyCommand(w, cmds[0], cfg, next);
      NavigationOnlyBatch(step.window, cmds[1..], cfg, step.nextViewId);
    }
  }
}

=== FILE: coordinator.dfy ===
/** The running application: every open window, whether exit has been
    scheduled, and the engine's next free view id. It drains each window's
    commands once per tick, routes engine events to the window that owns the
    view they name, refreshes and repaints windows, and closes windows that
    are done. The window map is kept as a sequence in its iteration order. */
module Coordinator {

  import opened Types
  import opened Windows
  import Commands

  datatype RunningState = RunningState(
    windows: seq<Window>,
    exitScheduled: bool,
    nextViewId: ViewId)

  datatype Fault = UnknownWebView(id: ViewId)

  /** An engine event either is handled or is a fatal contract violation. */
  datatype Result<+T> = Ok(value: T) | Fatal(fault: Fault)

  /** Two distinct windows: different ids and no view in common. */
  ghost predicate Compatible(a: Window, b: Window) {
    a.id != b.id && Views(a) !! Views(b)
  }

  ghost predicate Pairwise(ws: seq<Window>) {
    forall i, j :: 0 <= i < j < |ws| ==> Compatible(ws[i], ws[j])
  }

  /** Every window is valid, owns only ids the engine has already handed
      out, and no two windows share an id or a view. */
  ghost predicate Valid(rs: RunningState) {
    && (forall i :: 0 <= i < |rs.windows| ==>
          Windows.Valid(rs.windows[i]) && Commands.IdsBelow(rs.windows[i], rs.nextViewId))
    && Pairwise(rs.windows)
  }

  function Start(): (rs: RunningState)
    ensures Valid(rs) && |rs.windows| == 0 && !rs.exitScheduled
  {
    RunningState([], false, 0)
  }

  function ScheduleExit(rs: RunningState): (r: RunningState)
    ensures r.exitScheduled && r.windows == rs.windows
  {
    rs.(exitScheduled := true)
  }

  /** `windows.insert(id, window)`: replace the window with the same id, or
      add it. */
  function InsertWindow(ws: seq<Window>, w: Window): (r: seq<Window>)
    ensures w in r
    ensures forall x :: x in r ==> x == w || x in ws
    ensures forall x :: x in ws && x.id != w.id ==> x in r
    ensures (forall x :: x in ws ==> x.id != w.id) ==> r == ws + [w]
  {
    if |ws| == 0 then [w]
    else if ws[0].id == w.id then [w] + ws[1..]
    else [ws[0]] + InsertWindow(ws[1..], w)
  }

  /** A window whose id no open window has yet, and which holds no views. */
  ghost predicate Unregistered(rs: RunningState, w: Window) {
    Windows.Valid(w) && Views(w) == {} && forall x :: x in rs.windows ==> x.id != w.id
  }

  /** Open a platform window: build a first view on `url` with the engine's
      next id, make it active, and register the window under its id. */
  function OpenWindow(rs: RunningState, w: Window, url: Url): (r: RunningState)
    ensures r.nextViewId == rs.nextViewId + 1 && r.exitScheduled == rs.exitScheduled
    ensures CreateAndActivateToplevelWebview(w, rs.nextViewId, url) in r.windows
    ensures forall x :: x in rs.windows && x.id != w.id ==> x in r.windows
    ensures forall x :: x in r.windows ==> x.id == w.id || x in rs.windows
    ensures Valid(rs) && Unregistered(rs, w) ==> Valid(r) && |r.windows| == |rs.windows| + 1
  {
    var created := CreateAndActivateToplevelWebview(w, rs.nextViewId, url);
    var r := rs.(windows := InsertWindow(rs.windows, created), nextViewId := rs.nextViewId + 1);
    assert Valid(rs) && Unregistered(rs, w) ==> Valid(r) && |r.windows| == |rs.windows| + 1 by {
      if Valid(rs) && Unregistered(rs, w) {
        RegisterKeepsValid(rs, w, url);
      }
    }
    r
  }

  lemma RegisterKeepsValid(rs: RunningState, w: Window, url: Url)
    requires Valid(rs) && Unregistered(rs, w)
    ensures var created := CreateAndActivateToplevelWebview(w, rs.nextViewId, url);
      InsertWindow(rs.windows, created) == rs.windows + [created]
      && Valid(rs.(windows := rs.windows + [created], nextViewId := rs.nextViewId + 1))
  {
    var created := CreateAndActivateToplevelWebview(w, rs.nextViewId, url);
    assert created.id == w.id && Views(created) == {rs.nextViewId} && Windows.Valid(created);
    assert forall x :: x in rs.windows ==> x.id != created.id;
    AppendKeepsValid(rs, created);
  }

  lemma AppendKeepsValid(rs: RunningState, w: Window)
    requires Valid(rs)
    requires Windows.Valid(w) && Views(w) == {rs.nextViewId}
    requires forall x :: x in rs.windows ==> x.id != w.id
    ensures Valid(rs.(windows := rs.windows + [w], nextViewId := rs.nextViewId + 1))
  {
    var ws := rs.windows + [w];
    forall i | 0 <= i < |ws|
      ensures Windows.Valid(ws[i]) && Commands.IdsBelow(ws[i], rs.nextViewId + 1)
    {
      if i < |rs.windows| {
        assert Commands.IdsBelow(rs.windows[i], rs.nextViewId);
      }
    }
    forall i, j | 0 <= i < j < |ws|
      ensures Compatible(ws[i], ws[j])
    {
      if j == |rs.windows| {
        assert ws[i] in rs.windows;
        assert Commands.IdsBelow(rs.windows[i], rs.nextViewId);
      } else {
        assert Compatible(rs.windows[i], rs.windows[j]);
      }
    }
  }

  /** The opened window shows exactly one view, the one built on `url`,
      and it is the active one. */
  lemma OpenWindowActivatesFirstView(rs: RunningState, w: Window, url: Url)
    requires Windows.Valid(w) && Views(w) == {}
    ensures exists x :: (x in OpenWindow(rs, w, url).windows && x.id == w.id
      && Views(x) == {rs.nextViewId} && ActiveWebview(x) == Some(View(rs.nextViewId)))
  {
    var x := CreateAndActivateToplevelWebview(w, rs.nextViewId, url);
    assert x in OpenWindow(rs, w, url).windows;
  }

  /** The first window, in iteration order, that holds the view. */
  function FindOwner(ws: seq<Window>, id: ViewId): (r: Option<nat>)
    ensures r.Some? ==> r.value < |ws| && ContainsWebview(ws[r.value], id)
    ensures r.Some? ==> forall k :: 0 <= k < r.value ==> !ContainsWebview(ws[k], id)
    ensures r.None? <==> forall k :: 0 <= k < |ws| ==> !ContainsWebview(ws[k], id)
  {
    if |ws| == 0 then None
    else if ContainsWebview(ws[0], id) then Some(0)
    else
      var rest := FindOwner(ws[1..], id);
      if rest.None? then None else Some(rest.value + 1)
  }

  /** `maybe_window_for_webview_id`: the owning window, if there is one. */
  function MaybeWindowForWebviewId(rs: RunningState, id: ViewId): (r: Option<nat>)
    ensures r.Some? ==> r.value < |rs.windows| && ContainsWebview(rs.windows[r.value], id)
    ensures r.None? <==> forall k :: 0 <= k < |rs.windows| ==> !ContainsWebview(rs.windows[k], id)
    ensures Valid(rs) && r.Some? ==> forall k :: 0 <= k < |rs.windows| && k != r.value ==>
      !ContainsWebview(rs.windows[k], id)
  {
    FindOwner(rs.windows, id)
  }

  /** The window owning a view; a view no window owns means the engine and
      the shell disagree, which is fatal. */
  function WindowForWebviewId(rs: RunningState, id: ViewId): (r: Result<nat>)
    ensures r.Fatal? <==> forall k :: 0 <= k < |rs.windows| ==> !ContainsWebview(rs.windows[k], id)
    ensures r.Fatal? ==> r.fault == UnknownWebView(id)
    ensures r.Ok? ==> r.value < |rs.windows| && ContainsWebview(rs.windows[r.value], id)
  {
    match MaybeWindowForWebviewId(rs, id)
    case None => Fatal(UnknownWebView(id))
    case Some(k) => Ok(k)
  }

  /** Since no two windows share a view, the scan finds the one owner
      whatever the iteration order. */
  lemma OwnerIsUnique(rs: RunningState, id: ViewId, k: nat)
    requires Valid(rs)
    requires k < |rs.windows| && ContainsWebview(rs.windows[k], id)
    ensures WindowForWebviewId(rs, id) == Ok(k)
  {
    var r := FindOwner(rs.windows, id);
    if r.value != k {
      assert false;
    }
  }

  /** Replacing one window by a version that keeps its id and gains only
      freshly allocated views keeps the state valid. */
  lemma ReplaceKeepsValid(rs: RunningState, k: nat, w: Window, next: ViewId)
    requires Valid(rs)
    requires k < |rs.windows|
    requires w.id == rs.windows[k].id && Windows.Valid(w)
    requires rs.nextViewId <= next
    requires Commands.ViewsGrowFresh(rs.windows[k], w, rs.nextViewId, next)
    requires Commands.IdsBelow(w, next)
    ensures Valid(rs.(windows := rs.windows[k := w], nextViewId := next))
  {
    var ws := rs.windows[k := w];
    forall i, j | 0 <= i < j < |ws|
      ensures Compatible(ws[i], ws[j])
    {
      assert Compatible(rs.windows[i], rs.windows[j]);
      if i == k {
        forall v | v in Views(w) ensures v !in Views(ws[j]) {
          if v !in Views(rs.windows[k]) {
            assert Commands.IdsBelow(rs.windows[j], rs.nextViewId);
          }
        }
      } else if j == k {
        forall v | v in Views(w) ensures v !in Views(ws[i]) {
          if v !in Views(rs.windows[k]) {
            assert Commands.IdsBelow(rs.windows[i], rs.nextViewId);
          }
        }
      }
    }
  }

  /** `callback(window, window.take_user_interface_commands())` for one
      window: its queue is emptied and the taken commands applied. */
  function DrainWindow(w: Window, cfg: Commands.Config, next: ViewId): (r: Commands.Step)
    ensures r.window.commands == [] && Commands.Untouched(w.(commands := []), r.window)
    ensures next <= r.nextViewId
    ensures Commands.ViewsGrowFresh(w, r.window, next, r.nextViewId)
    ensures Windows.Valid(w) && Commands.IdsBelow(w, next) ==>
      Windows.Valid(r.window) && Commands.IdsBelow(r.window, r.nextViewId)
    ensures r == Commands.ApplyCommands(w.(commands := []), w.commands, cfg, next)
  {
    var taken := TakeCommands(w);
    assert Views(taken.1) == Views(w);
    Commands.ApplyCommands(taken.1, taken.0, cfg, next)
  }

  /** `after` is `before` with its queued commands applied, starting from
      some engine id. */
  ghost predicate DrainedOnce(before: Window, after: Window, cfg: Commands.Config) {
    exists n: ViewId :: after == DrainWindow(before, cfg, n).window
  }

  /** Drain and apply the commands of the windows from position `i` on. */
  function DrainFrom(rs: RunningState, cfg: Commands.Config, i: nat): (r: RunningState)
    requires i <= |rs.windows|
    ensures |r.windows| == |rs.windows|
    ensures r.exitScheduled == rs.exitScheduled && rs.nextViewId <= r.nextViewId
    ensures forall k :: 0 <= k < i ==> r.windows[k] == rs.windows[k]
    ensures forall k :: i <= k < |r.windows| ==>
      r.windows[k].commands == [] && r.windows[k].id == rs.windows[k].id
    ensures forall k :: i <= k < |r.windows| ==> DrainedOnce(rs.windows[k], r.windows[k], cfg)
    ensures Valid(rs) ==> Valid(r)
    decreases |rs.windows| - i
  {
    if i == |rs.windows| then rs
    else
      var step := DrainWindow(rs.windows[i], cfg, rs.nextViewId);
      var next := rs.(windows := rs.windows[i := step.window], nextViewId := step.nextViewId);
      DrainOneKeepsValid(rs, cfg, i);
      var r := DrainFrom(next, cfg, i + 1);
      assert forall k :: i < k < |r.windows| ==> next.windows[k] == rs.windows[k];
      r
  }

  /** Draining the window at position `i` drains it once and keeps the
      state valid. */
  lemma DrainOneKeepsValid(rs: RunningState, cfg: Commands.Config, i: nat)
    requires i < |rs.windows|
    ensures var step := DrainWindow(rs.windows[i], cfg, rs.nextViewId);
      && DrainedOnce(rs.windows[i], step.window, cfg)
      && (Valid(rs) ==> Valid(rs.(windows := rs.windows[i := step.window], nextViewId := step.nextViewId)))
  {
    var step := DrainWindow(rs.windows[i], cfg, rs.nextViewId);
    if Valid(rs) {
      ReplaceKeepsValid(rs, i, step.window, step.nextViewId);
    }
  }

  /** Take every window's queued commands and apply them, each window once,
      in iteration order. */
  function ForeachWindowAndInterfaceCommands(rs: RunningState, cfg: Commands.Config): (r: RunningState)
    ensures |r.windows| == |rs.windows|
    ensures r.exitScheduled == rs.exitScheduled && rs.nextViewId <= r.nextViewId
    ensures forall k :: 0 <= k < |r.windows| ==>
      r.windows[k].commands == [] && r.windows[k].id == rs.windows[k].id
    ensures forall k :: 0 <= k < |r.windows| ==> DrainedOnce(rs.windows[k], r.windows[k], cfg)
    ensures Valid(rs) ==> Valid(r)
  {
    DrainFrom(rs, cfg, 0)
  }

  /** The engine events the shell reacts to, each naming the view it is
      about. `PlatformRequest` stands for the events that are only forwarded
      to the platform window (move, resize, cursor, dialogs, crash, ...). */
  datatype EngineEvent =
    | StatusTextChanged(view: ViewId)
    | HistoryChanged(view: ViewId)
    | PageTitleChanged(view: ViewId)
    | LoadStatusChanged(view: ViewId)
    | Closed(view: ViewId)
    | NewFrameReady(view: ViewId)
    | FaviconChanged(view: ViewId)
    | EmbedderControlShown(view: ViewId, control: ControlId)
    | EmbedderControlHidden(view: ViewId, control: ControlId)
    | PlatformRequest(view: ViewId)

  /** What an event does to the window that owns its view. */
  function HandleEvent(w: Window, ev: EngineEvent): (r: Window)
    ensures r.id == w.id && r.commands == w.commands
    ensures Views(r) <= Views(w)
    ensures Windows.Valid(w) ==> Windows.Valid(r)
    ensures ev.StatusTextChanged? || ev.HistoryChanged? || ev.PageTitleChanged? || ev.LoadStatusChanged?
            ==> r.needsUpdate && r.needsRepaint == w.needsRepaint && r.webviews == w.webviews
    ensures ev.NewFrameReady? ==> r.needsRepaint && r.needsUpdate == w.needsUpdate && r.webviews == w.webviews
    ensures ev.Closed? ==> r == CloseWebview(w, ev.view)
    ensures ev.FaviconChanged? ==> r.pendingFaviconLoads == w.pendingFaviconLoads + [ev.view] && r.needsRepaint
    ensures ev.EmbedderControlShown? || ev.EmbedderControlHidden? ==> r.needsUpdate && r.needsRepaint
    ensures ev.PlatformRequest? ==> r == w
    ensures ev.StatusTextChanged? || ev.HistoryChanged? || ev.PageTitleChanged? || ev.LoadStatusChanged?
            ==> r == SetNeedsUpdate(w)
    ensures ev.NewFrameReady? ==> r == SetNeedsRepaint(w)
    ensures ev.FaviconChanged? ==> r == NotifyFaviconChanged(w, ev.view)
    ensures ev.EmbedderControlShown? ==> r == ShowEmbedderControl(w, ev.view, ev.control)
    ensures ev.EmbedderControlHidden? ==> r == HideEmbedderControl(w, ev.view, ev.control)
    ensures !ev.Closed? ==> r.webviews == w.webviews && r.closeScheduled == w.closeScheduled
  {
    match ev
    case StatusTextChanged(_) => SetNeedsUpdate(w)
    case HistoryChanged(_) => SetNeedsUpdate(w)
    case PageTitleChanged(_) => SetNeedsUpdate(w)
    case LoadStatusChanged(_) => SetNeedsUpdate(w)
    case Closed(view) => CloseWebview(w, view)
    case NewFrameReady(_) => SetNeedsRepaint(w)
    case FaviconChanged(view) => NotifyFaviconChanged(w, view)
    case EmbedderControlShown(view, control) => ShowEmbedderControl(w, view, control)
    case EmbedderControlHidden(view, control) => HideEmbedderControl(w, view, control)
    case PlatformRequest(_) => w
  }

  /** Route one event to the window owning its view. */
  function Dispatch(rs: RunningState, ev: EngineEvent): (r: Result<RunningState>)
    ensures r.Fatal? <==> forall k :: 0 <= k < |rs.windows| ==> !ContainsWebview(rs.windows[k], ev.view)
    ensures r.Ok? ==>
      && |r.value.windows| == |rs.windows|
      && r.value.exitScheduled == rs.exitScheduled
      && r.value.nextViewId == rs.nextViewId
      && exists k :: 0 <= k < |rs.windows| && ContainsWebview(rs.windows[k], ev.view)
           && r.value.windows == rs.windows[k := HandleEvent(rs.windows[k], ev)]
    ensures r.Ok? && Valid(rs) ==> Valid(r.value)
  {
    match WindowForWebviewId(rs, ev.view)
    case Fatal(f) => Fatal(f)
    case Ok(k) =>
      var r := rs.(windows := rs.windows[k := HandleEvent(rs.windows[k], ev)]);
      assert Valid(rs) ==> Valid(r) by {
        if Valid(rs) {
          ReplaceKeepsValid(rs, k, HandleEvent(rs.windows[k], ev), rs.nextViewId);
        }
      }
      Ok(r)
  }

  /** Deliver the events the engine raised while it ran, in order; the
      first event about an unknown view is fatal. */
  function DeliverEvents(rs: RunningState, events: seq<EngineEvent>): (r: Result<RunningState>)
    ensures r.Ok? ==>
      && |r.value.windows| == |rs.windows|
      && r.value.exitScheduled == rs.exitScheduled
      && r.value.nextViewId == rs.nextViewId
      && forall k :: 0 <= k < |rs.windows| ==>
           r.value.windows[k].id == rs.windows[k].id && r.value.windows[k].commands == rs.windows[k].commands
    ensures r.Ok? && Valid(rs) ==> Valid(r.value)
    ensures |events| == 0 ==> r == Ok(rs)
    ensures |events| == 1 ==> r == Dispatch(rs, events[0])
    decreases |events|
  {
    if |events| == 0 then Ok(rs)
    else
      match Dispatch(rs, events[0])
      case Fatal(f) => Fatal(f)
      case Ok(next) => DeliverEvents(next, events[1..])
  }

  /** A view the user interface has already closed is owned by no window,
      so a later engine `Closed` notification for it is fatal: the lookup
      fails before the window's early return for an absent id is reached. */
  lemma ClosedAfterUiCloseIsFatal(rs: RunningState, k: nat, v: ViewId)
    requires Valid(rs)
    requires k < |rs.windows| && ContainsWebview(rs.windows[k], v)
    ensures Dispatch(rs.(windows := rs.windows[k := CloseWebview(rs.windows[k], v)]), Closed(v))
         == Fatal(UnknownWebView(v))
  {
    var ws := rs.windows[k := CloseWebview(rs.windows[k], v)];
    forall j | 0 <= j < |ws| ensures !ContainsWebview(ws[j], v) {
      if j < k {
        assert Compatible(rs.windows[j], rs.windows[k]);
      } else if k < j {
        assert Compatible(rs.windows[k], rs.windows[j]);
      }
    }
  }

  /** Events are delivered front to back: delivering `a + b` is delivering
      `a` and then, unless an event of `a` was fatal, delivering `b`. */
  lemma {:induction false} DeliverEventsInOrder(rs: RunningState, a: seq<EngineEvent>, b: seq<EngineEvent>)
    ensures DeliverEvents(rs, a + b)
      == if DeliverEvents(rs, a).Fatal? then DeliverEvents(rs, a) else DeliverEvents(DeliverEvents(rs, a).value, b)
    decreases |a|
  {
    if |a| > 0 {
      assert (a + b)[0] == a[0];
      assert (a + b)[1..] == a[1..] + b;
      match Dispatch(rs, a[0])
      case Fatal(_) =>
      case Ok(next) => DeliverEventsInOrder(next, a[1..], b);
    } else {
      assert a + b == b;
    }
  }

  /** End-of-tick refresh of every window; `ui` gives, per window, whether
      its interface asks for a repaint after refreshing. */
  function RefreshWindows(rs: RunningState, ui: WindowId -> bool): (r: RunningState)
    ensures |r.windows| == |rs.windows|
    ensures forall k :: 0 <= k < |r.windows| ==>
      && r.windows[k] == UpdateAndRequestRepaintIfNecessary(rs.windows[k], ui(rs.windows[k].id))
      && !r.windows[k].needsUpdate && !r.windows[k].needsRepaint
    ensures r.exitScheduled == rs.exitScheduled && r.nextViewId == rs.nextViewId
    ensures Valid(rs) ==> Valid(r)
  {
    var ws := seq(|rs.windows|, k requires 0 <= k < |rs.windows| =>
                  UpdateAndRequestRepaintIfNecessary(rs.windows[k], ui(rs.windows[k].id)));
    RefreshKeepsValid(rs, ui, ws);
    rs.(windows := ws)
  }

  /** Refreshing leaves every window's views where they were, so the
      running state stays valid. */
  lemma RefreshKeepsValid(rs: RunningState, ui: WindowId -> bool, ws: seq<Window>)
    requires |ws| == |rs.windows|
    requires forall k :: 0 <= k < |ws| ==> ws[k] == UpdateAndRequestRepaintIfNecessary(rs.windows[k], ui(rs.windows[k].id))
    ensures Valid(rs) ==> Valid(rs.(windows := ws))
  {
    if Valid(rs) {
      forall i | 0 <= i < |ws|
        ensures Windows.Valid(ws[i]) && Commands.IdsBelow(ws[i], rs.nextViewId)
      {
        assert Views(ws[i]) == Views(rs.windows[i]);
      }
      forall i, j | 0 <= i < j < |ws| ensures Compatible(ws[i], ws[j]) {
        assert Compatible(rs.windows[i], rs.windows[j]);
        assert Views(ws[i]) == Views(rs.windows[i]) && Views(ws[j]) == Views(rs.windows[j]);
      }
    }
  }

  /** `retain(|w| !exit_scheduled && !w.should_close())`. */
  function KeepOpen(ws: seq<Window>, exitScheduled: bool): (r: seq<Window>)
    ensures forall x :: x in r <==> x in ws && !exitScheduled && !ShouldClose(x)
    ensures |r| <= |ws| && (exitScheduled ==> |r| == 0)
    ensures Pairwise(ws) ==> Pairwise(r)
  {
    if |ws| == 0 then []
    else
      var rest := KeepOpen(ws[1..], exitScheduled);
      if !exitScheduled && !ShouldClose(ws[0]) then
        assert Pairwise(ws) ==> forall x :: x in rest ==> Compatible(ws[0], x) by {
          if Pairwise(ws) {
            forall x | x in rest ensures Compatible(ws[0], x) {
              var j :| 0 <= j < |ws[1..]| && ws[1..][j] == x;
              assert ws[j + 1] == x;
            }
          }
        }
        assert Pairwise(ws) ==> Pairwise(ws[1..]) by {
          if Pairwise(ws) {
            forall i, j | 0 <= i < j < |ws[1..]| ensures Compatible(ws[1..][i], ws[1..][j]) {
              assert ws[1..][i] == ws[i + 1] && ws[1..][j] == ws[j + 1];
            }
          }
        }
        [ws[0]] + rest
      else
        assert Pairwise(ws) ==> Pairwise(ws[1..]) by {
          if Pairwise(ws) {
            forall i, j | 0 <= i < j < |ws[1..]| ensures Compatible(ws[1..][i], ws[1..][j]) {
              assert ws[1..][i] == ws[i + 1] && ws[1..][j] == ws[j + 1];
            }
          }
        }
        rest
  }

  /** Close the windows that are done (all of them once exit is scheduled),
      then schedule exit if none is left. */
  function PruneWindows(rs: RunningState): (r: RunningState)
    ensures rs.exitScheduled ==> |r.windows| == 0
    ensures forall x :: x in r.windows <==> x in rs.windows && !rs.exitScheduled && !ShouldClose(x)
    ensures r.exitScheduled <==> rs.exitScheduled || |r.windows| == 0
    ensures r.nextViewId == rs.nextViewId
    ensures Valid(rs) ==> Valid(r)
  {
    var kept := KeepOpen(rs.windows, rs.exitScheduled);
    var r := rs.(windows := kept, exitScheduled := rs.exitScheduled || |kept| == 0);
    assert Valid(rs) ==> Valid(r) by {
      if Valid(rs) {
        forall i | 0 <= i < |kept|
          ensures Windows.Valid(kept[i]) && Commands.IdsBelow(kept[i], rs.nextViewId)
        {
          assert kept[i] in rs.windows;
          var j :| 0 <= j < |rs.windows| && rs.windows[j] == kept[i];
        }
      }
    }
    r
  }

  /** One spin of the event loop after the commands were applied: the
      engine runs and raises `events`, every window is refreshed, finished
      windows are closed, and the answer is whether to keep spinning. */
  function SpinEventLoop(rs: RunningState, events: seq<EngineEvent>, ui: WindowId -> bool)
    : (r: Result<(RunningState, bool)>)
    ensures DeliverEvents(rs, events).Fatal? <==> r.Fatal?
    ensures r.Ok? ==> r.value.1 == !r.value.0.exitScheduled
    ensures r.Ok? ==> (r.value.1 <==> |r.value.0.windows| > 0)
    ensures r.Ok? && rs.exitScheduled ==> |r.value.0.windows| == 0 && !r.value.1
    ensures r.Ok? ==> forall k :: 0 <= k < |r.value.0.windows| ==>
      && !r.value.0.windows[k].needsUpdate && !r.value.0.windows[k].needsRepaint
      && !ShouldClose(r.value.0.windows[k])
    ensures r.Ok? && !rs.exitScheduled ==>
      forall k :: 0 <= k < |DeliverEvents(rs, events).value.windows| ==>
        var refreshed := UpdateAndRequestRepaintIfNecessary(
          DeliverEvents(rs, events).value.windows[k], ui(DeliverEvents(rs, events).value.windows[k].id));
        refreshed in r.value.0.windows <==> !ShouldClose(DeliverEvents(rs, events).value.windows[k])
    ensures r.Ok? && (forall k :: 0 <= k < |rs.windows| ==> rs.windows[k].commands == []) ==>
      forall k :: 0 <= k < |r.value.0.windows| ==> r.value.0.windows[k].commands == []
    ensures r.Ok? ==> r.value.0.nextViewId == rs.nextViewId
    ensures r.Ok? ==> forall x :: x in r.value.0.windows ==>
      x in RefreshWindows(DeliverEvents(rs, events).value, ui).windows
    ensures r.Ok? && Valid(rs) ==> Valid(r.value.0)
  {
    match DeliverEvents(rs, events)
    case Fatal(f) => Fatal(f)
    case Ok(delivered) =>
      var refreshed := RefreshWindows(delivered, ui);
      var pruned := PruneWindows(refreshed);
      SurvivorsAreClearAndOpen(delivered, ui);
      SurvivorsAreTheOpenWindows(delivered, ui);
      Ok((pruned, !pruned.exitScheduled))
  }

  /** Every window left after refreshing and pruning is a refreshed window
      with both flags clear that should not close. */
  lemma SurvivorsAreClearAndOpen(delivered: RunningState, ui: WindowId -> bool)
    ensures var refreshed := RefreshWindows(delivered, ui);
      var pruned := PruneWindows(refreshed);
      forall k :: 0 <= k < |pruned.windows| ==>
        && pruned.windows[k] in refreshed.windows
        && !pruned.windows[k].needsUpdate && !pruned.windows[k].needsRepaint
        && !ShouldClose(pruned.windows[k])
  {
    var refreshed := RefreshWindows(delivered, ui);
    var pruned := PruneWindows(refreshed);
    forall k | 0 <= k < |pruned.windows|
      ensures pruned.windows[k] in refreshed.windows
      ensures !pruned.windows[k].needsUpdate && !pruned.windows[k].needsRepaint
    {
      assert pruned.windows[k] in pruned.windows;
      var j :| 0 <= j < |refreshed.windows| && refreshed.windows[j] == pruned.windows[k];
    }
  }

  /** Without a scheduled exit, a refreshed window survives exactly when
      the delivered window it came from should not close. */
  lemma SurvivorsAreTheOpenWindows(delivered: RunningState, ui: WindowId -> bool)
    ensures var pruned := PruneWindows(RefreshWindows(delivered, ui));
      !delivered.exitScheduled ==> forall k :: 0 <= k < |delivered.windows| ==>
        var refreshed := UpdateAndRequestRepaintIfNecessary(delivered.windows[k], ui(delivered.windows[k].id));
        refreshed in pruned.windows <==> !ShouldClose(delivered.windows[k])
  {
    var refreshed := RefreshWindows(delivered, ui);
    forall k | 0 <= k < |delivered.windows|
      ensures ShouldClose(refreshed.windows[k]) == ShouldClose(delivered.windows[k])
      ensures refreshed.windows[k] in refreshed.windows
    {
      assert SameContents(delivered.windows[k], refreshed.windows[k]);
    }
  }

  /** Once exit is scheduled, the next spin closes every window and says
      stop, whatever the engine does (short of a fatal event). */
  lemma ExitedStateStops(rs: RunningState, events: seq<EngineEvent>, ui: WindowId -> bool)
    requires rs.exitScheduled
    ensures SpinEventLoop(rs, events, ui).Ok? ==>
      SpinEventLoop(rs, events, ui).value == (RunningState([], true, rs.nextViewId), false)
  {
  }

  /** With no window open, any event is about an unknown view; so only an
      empty event sequence can be delivered. */
  lemma EventsWithoutWindowsAreFatalOrEmpty(rs: RunningState, events: seq<EngineEvent>)
    requires |rs.windows| == 0
    ensures DeliverEvents(rs, events).Ok? <==> |events| == 0
  {
  }
}

=== FILE: parser.dfy ===
/** The location-bar resolver: free-form text typed by the user becomes an
    address by trying, in strict order, a direct parse, a local file path, a
    domain name and finally the configured search page. */
module Parser {

  import opened Types
  import opened Text

  /** The search page a fresh profile uses; `%s` stands for the query. */
  const DefaultSearchPage: string := "https://duckduckgo.com/html/?q=%s"

  /** The heuristic for text that looks like a host, possibly with a path. */
  predicate IsDomainLike(s: string)
    ensures IsDomainLike(s) <==>
      || (!StartsWith(s, '/') && '/' in s)
      || (' ' !in s && !StartsWith(s, '.') && '.' in s)
  {
    SplitCount(s, '.');
    OccurrencesPositive(s, '.');
    || (!StartsWith(s, '/') && '/' in s)
    || (' ' !in s && !StartsWith(s, '.') && |Split(s, '.')| > 1)
  }

  /** An absolute path becomes a `file://` address. */
  function TryAsFile(request: string, urls: UrlSyntax): (r: Option<Url>)
    ensures r.Some? ==> StartsWith(request, '/') && r == urls.parse("file://" + request)
    ensures StartsWith(request, '/') ==> r == urls.parse("file://" + request)
  {
    if StartsWith(request, '/') then urls.parse("file://" + request) else None
  }

  /** Whether the domain step applies: a registrable domain without spaces,
      or anything domain-like. */
  predicate DomainStepApplies(request: string, urls: UrlSyntax) {
    (' ' !in request && urls.isRegDomain(request)) || IsDomainLike(request)
  }

  /** A registrable or domain-like name becomes an `https://` address. */
  function TryAsDomain(request: string, urls: UrlSyntax): (r: Option<Url>)
    ensures r.Some? ==> DomainStepApplies(request, urls) && r == urls.parse("https://" + request)
    ensures DomainStepApplies(request, urls) ==> r == urls.parse("https://" + request)
    ensures '.' !in request && '/' !in request && !urls.isRegDomain(request) ==> r.None?
  {
    if DomainStepApplies(request, urls) then urls.parse("https://" + request) else None
  }

  /** Any non-empty text becomes a query on the search page. */
  function TryAsSearchPage(request: string, searchpage: string, urls: UrlSyntax): (r: Option<Url>)
    ensures |request| == 0 ==> r.None?
    ensures |request| > 0 ==> r == urls.parse(Substitute(searchpage, request))
    ensures |request| > 0 && (forall i :: 0 <= i < |searchpage| ==> searchpage[i] != '%') ==>
      r == urls.parse(searchpage)
  {
    if |request| == 0 then None else urls.parse(Substitute(searchpage, request))
  }

  /** The full resolver: the first step that yields an address wins. */
  function LocationBarInputToUrl(input: string, searchpage: string, urls: UrlSyntax): (r: Option<Url>)
    ensures r.Some? ==>
      || r == urls.parse(Trim(input))
      || r == TryAsFile(Trim(input), urls)
      || r == TryAsDomain(Trim(input), urls)
      || r == TryAsSearchPage(Trim(input), searchpage, urls)
    ensures r.None? ==> urls.parse(Trim(input)).None?
  {
    var request := Trim(input);
    var direct := urls.parse(request);
    if direct.Some? then direct
    else
      var file := TryAsFile(request, urls);
      if file.Some? then file
      else
        var domain := TryAsDomain(request, urls);
        if domain.Some? then domain
        else TryAsSearchPage(request, searchpage, urls)
  }

  /** The `split('.')` clause of the heuristic is just "contains a dot", so the
      heuristic reads as two plain membership conditions. */
  lemma DomainLikeCharacterized(s: string)
    ensures IsDomainLike(s) <==>
      || (!StartsWith(s, '/') && '/' in s)
      || (' ' !in s && !StartsWith(s, '.') && '.' in s)
  {
    SplitCount(s, '.');
    OccurrencesPositive(s, '.');
  }

  /** Text with no slash is never domain-like when it starts with a dot or
      contains a space. */
  lemma LeadingDotOrSpaceNotDomainLike(s: string)
    requires '/' !in s
    requires StartsWith(s, '.') || ' ' in s
    ensures !IsDomainLike(s)
  {
    DomainLikeCharacterized(s);
  }

  /** Without the no-slash condition the claim fails: the slash clause makes
      text with a leading dot or an inner space domain-like. */
  lemma SlashMakesDomainLike()
    ensures IsDomainLike(".a/b") && StartsWith(".a/b", '.')
    ensures IsDomainLike("a b/c") && ' ' in "a b/c"
  {
    assert '/' in ".a/b" && !StartsWith(".a/b", '/');
    assert '/' in "a b/c" && ' ' in "a b/c";
  }

  /** The resolver sees the trimmed text only: surrounding whitespace never
      changes the outcome. */
  lemma ResolveIgnoresSurroundingWhitespace(input: string, searchpage: string, urls: UrlSyntax)
    ensures LocationBarInputToUrl(input, searchpage, urls)
         == LocationBarInputToUrl(Trim(input), searchpage, urls)
  {
    TrimIdempotent(input);
  }

  /** Step 1: text that already parses is returned unchanged, whatever the
      other steps would say. */
  lemma ParsedInputPassesThrough(input: string, searchpage: string, urls: UrlSyntax)
    requires urls.parse(Trim(input)).Some?
    ensures LocationBarInputToUrl(input, searchpage, urls) == urls.parse(Trim(input))
  {
  }

  /** Step 2: the file step is tried second and fires only on a leading '/'. */
  lemma FileStep(input: string, searchpage: string, urls: UrlSyntax)
    requires urls.parse(Trim(input)).None?
    ensures !StartsWith(Trim(input), '/') ==> TryAsFile(Trim(input), urls).None?
    ensures StartsWith(Trim(input), '/') && urls.parse("file://" + Trim(input)).Some?
            ==> LocationBarInputToUrl(input, searchpage, urls) == urls.parse("file://" + Trim(input))
  {
  }

  /** Step 3: after the first two fail, the domain step is taken exactly when
      its condition holds and its parse succeeds. */
  lemma DomainStep(input: string, searchpage: string, urls: UrlSyntax)
    requires urls.parse(Trim(input)).None?
    requires TryAsFile(Trim(input), urls).None?
    ensures TryAsDomain(Trim(input), urls).Some? <==>
      DomainStepApplies(Trim(input), urls) && urls.parse("https://" + Trim(input)).Some?
    ensures TryAsDomain(Trim(input), urls).Some? ==>
      LocationBarInputToUrl(input, searchpage, urls) == urls.parse("https://" + Trim(input))
  {
  }

  /** Step 4: only when the first three fail is the search page consulted,
      and never for empty text. */
  lemma SearchStep(input: string, searchpage: string, urls: UrlSyntax)
    requires urls.parse(Trim(input)).None?
    requires TryAsFile(Trim(input), urls).None?
    requires TryAsDomain(Trim(input), urls).None?
    ensures |Trim(input)| == 0 ==> LocationBarInputToUrl(input, searchpage, urls).None?
    ensures |Trim(input)| > 0 ==>
      LocationBarInputToUrl(input, searchpage, urls) == urls.parse(Substitute(searchpage, Trim(input)))
  {
  }

  /** Blank input never resolves, given that the address parser rejects the
      empty string (it has no scheme) and the empty string is no registrable
      domain. */
  lemma BlankInputNeverResolves(input: string, searchpage: string, urls: UrlSyntax)
    requires forall k :: 0 <= k < |input| ==> IsWhitespace(input[k])
    requires urls.parse("").None?
    requires !urls.isRegDomain("")
    ensures LocationBarInputToUrl(input, searchpage, urls).None?
  {
    assert Trim(input) == "";
    assert !IsDomainLike("");
  }

  /** The default search page puts the query right after `?q=`. */
  lemma DefaultSearchPageQuery(term: string)
    ensures Substitute(DefaultSearchPage, term) == "https://duckduckgo.com/html/?q=" + term
  {
    var prefix := "https://duckduckgo.com/html/?q=";
    assert DefaultSearchPage == prefix + "%s" + "";
    SubstituteAfterPrefix(prefix, "", term);
  }
}

=== FILE: parser_examples.dfy ===
/** The resolver's expected input/output pairs, stated against the
    uninterpreted address parser: each lemma assumes only what the URL
    Standard says about the candidate strings (which of them parse) and
    concludes which candidate the resolver returns. */
module ParserExamples {

  import opened Types
  import opened Text
  import opened Parser

  const SearchPrefix: string := "https://duckduckgo.com/html/?q="

  /** A single token with an inner dot, no slash and no leading dot is sent
      to `https://` rather than to the search page. */
  lemma DottedNameGoesToHttps(name: string, urls: UrlSyntax)
    requires |name| > 0 && !IsWhitespace(name[0]) && !IsWhitespace(name[|name| - 1])
    requires ' ' !in name && '/' !in name && name[0] != '.' && '.' in name
    requires urls.parse(name).None?
    requires urls.parse("https://" + name).Some?
    ensures LocationBarInputToUrl(name, DefaultSearchPage, urls) == urls.parse("https://" + name)
  {
    TrimmedIsFixed(name);
    DomainLikeCharacterized(name);
  }

  /** Text with a slash past its first character is domain-like, whatever
      dots or suffix it has, and is sent to `https://`. */
  lemma PathGoesToHttps(t: string, urls: UrlSyntax)
    requires |t| > 0 && !IsWhitespace(t[0]) && !IsWhitespace(t[|t| - 1])
    requires '/' in t && t[0] != '/'
    requires urls.parse(t).None?
    requires urls.parse("https://" + t).Some?
    ensures LocationBarInputToUrl(t, DefaultSearchPage, urls) == urls.parse("https://" + t)
  {
    TrimmedIsFixed(t);
  }

  /** A single word that is neither a registrable domain nor domain-like goes
      to the search page. */
  lemma PlainWordGoesToSearch(word: string, urls: UrlSyntax)
    requires |word| > 0 && !IsWhitespace(word[0]) && !IsWhitespace(word[|word| - 1])
    requires '/' !in word && '.' !in word
    requires urls.parse(word).None?
    requires !urls.isRegDomain(word)
    ensures LocationBarInputToUrl(word, DefaultSearchPage, urls) == urls.parse(SearchPrefix + word)
  {
    TrimmedIsFixed(word);
    DomainLikeCharacterized(word);
    DefaultSearchPageQuery(word);
  }

  lemma DataUrlPassesThrough(urls: UrlSyntax)
    requires urls.parse("data:text/html,a").Some?
    ensures LocationBarInputToUrl("data:text/html,a", DefaultSearchPage, urls)
         == urls.parse("data:text/html,a")
  {
    TrimmedIsFixed("data:text/html,a");
  }

  lemma ReadmeIsADomain(urls: UrlSyntax)
    requires urls.parse("README.md").None?
    requires urls.parse("https://README.md").Some?
    ensures LocationBarInputToUrl("README.md", DefaultSearchPage, urls) == urls.parse("https://README.md")
  {
    assert "https://" + "README.md" == "https://README.md";
    DottedNameGoesToHttps("README.md", urls);
  }

  /** A trailing dot is kept in the `https://` candidate. */
  lemma TrailingDotKept(urls: UrlSyntax)
    requires urls.parse("leah.chromebooks.lol.").None?
    requires urls.parse("https://leah.chromebooks.lol.").Some?
    ensures LocationBarInputToUrl("leah.chromebooks.lol.", DefaultSearchPage, urls)
         == urls.parse("https://leah.chromebooks.lol.")
  {
    assert "https://" + "leah.chromebooks.lol." == "https://leah.chromebooks.lol.";
    DottedNameGoesToHttps("leah.chromebooks.lol.", urls);
  }

  /** `nic.md/ro` reaches `https://` through the slash clause. */
  lemma NicMdPathGoesToHttps(urls: UrlSyntax)
    requires urls.parse("nic.md/ro").None? && urls.parse("https://nic.md/ro").Some?
    ensures LocationBarInputToUrl("nic.md/ro", DefaultSearchPage, urls) == urls.parse("https://nic.md/ro")
  {
    assert "nic.md/ro"[6] == '/';
    assert "https://" + "nic.md/ro" == "https://nic.md/ro";
    PathGoesToHttps("nic.md/ro", urls);
  }

  /** `foo.txt/ro` reaches `https://` through the slash clause. */
  lemma FooTxtPathGoesToHttps(urls: UrlSyntax)
    requires urls.parse("foo.txt/ro").None? && urls.parse("https://foo.txt/ro").Some?
    ensures LocationBarInputToUrl("foo.txt/ro", DefaultSearchPage, urls) == urls.parse("https://foo.txt/ro")
  {
    assert "foo.txt/ro"[7] == '/';
    assert "https://" + "foo.txt/ro" == "https://foo.txt/ro";
    PathGoesToHttps("foo.txt/ro", urls);
  }

  /** `resources/public_domains.txt` reaches `https://` through the slash
      clause. */
  lemma ResourcesPathGoesToHttps(urls: UrlSyntax)
    requires urls.parse("resources/public_domains.txt").None?
    requires urls.parse("https://resources/public_domains.txt").Some?
    ensures LocationBarInputToUrl("resources/public_domains.txt", DefaultSearchPage, urls)
         == urls.parse("https://resources/public_domains.txt")
  {
    assert "resources/public_domains.txt"[9] == '/';
    assert "https://" + "resources/public_domains.txt" == "https://resources/public_domains.txt";
    PathGoesToHttps("resources/public_domains.txt", urls);
  }

  /** A slash makes text domain-like even without a dot. */
  lemma UserLocalDomain(urls: UrlSyntax)
    requires urls.parse("foo/bar").None?
    requires urls.parse("https://foo/bar").Some?
    ensures LocationBarInputToUrl("foo/bar", DefaultSearchPage, urls) == urls.parse("https://foo/bar")
  {
    TrimmedIsFixed("foo/bar");
    assert '/' in "foo/bar";
    assert "https://" + "foo/bar" == "https://foo/bar";
  }

  /** An absolute path becomes a file address. */
  lemma AbsolutePathIsAFile(urls: UrlSyntax)
    requires urls.parse("/dev/null").None?
    requires urls.parse("file:///dev/null").Some?
    ensures LocationBarInputToUrl("/dev/null", DefaultSearchPage, urls) == urls.parse("file:///dev/null")
  {
    TrimmedIsFixed("/dev/null");
    assert "file://" + "/dev/null" == "file:///dev/null";
  }

  lemma WordGoesToSearch(urls: UrlSyntax)
    requires urls.parse("dragonfruit").None?
    requires !urls.isRegDomain("dragonfruit")
    ensures LocationBarInputToUrl("dragonfruit", DefaultSearchPage, urls)
         == urls.parse(SearchPrefix + "dragonfruit")
  {
    PlainWordGoesToSearch("dragonfruit", urls);
  }

  /** Trimmed text that fails to parse, is no file path and for which the
      domain step does not apply goes to the search page. */
  lemma NotDomainGoesToSearch(t: string, urls: UrlSyntax)
    requires |t| > 0 && !IsWhitespace(t[0]) && !IsWhitespace(t[|t| - 1])
    requires !StartsWith(t, '/')
    requires urls.parse(t).None?
    requires !DomainStepApplies(t, urls)
    ensures LocationBarInputToUrl(t, DefaultSearchPage, urls) == urls.parse(SearchPrefix + t)
  {
    TrimmedIsFixed(t);
    DefaultSearchPageQuery(t);
  }

  /** A leading dot keeps a dotted name away from the domain heuristic. */
  lemma LeadingDotGoesToSearch(urls: UrlSyntax)
    requires urls.parse(".leah.chromebooks.lol").None?
    requires !urls.isRegDomain(".leah.chromebooks.lol")
    ensures LocationBarInputToUrl(".leah.chromebooks.lol", DefaultSearchPage, urls)
         == urls.parse(SearchPrefix + ".leah.chromebooks.lol")
  {
    var t := ".leah.chromebooks.lol";
    assert '/' !in t;
    LeadingDotOrSpaceNotDomainLike(t);
    NotDomainGoesToSearch(t, urls);
  }

  /** Text with inner spaces goes to the search page whatever the Public
      Suffix List says; the parser then percent-encodes the spaces. */
  lemma SpacesGoToSearch(urls: UrlSyntax)
    requires urls.parse("3.5 kg in lb").None?
    ensures LocationBarInputToUrl("3.5 kg in lb", DefaultSearchPage, urls)
         == urls.parse(SearchPrefix + "3.5 kg in lb")
  {
    var t := "3.5 kg in lb";
    assert ' ' in t && '/' !in t;
    LeadingDotOrSpaceNotDomainLike(t);
    NotDomainGoesToSearch(t, urls);
  }
}

=== FILE: seqs.dfy ===
/** Sequence utilities: duplicate-freedom and the order-preserving removal
    that `Vec::retain` performs. */
module Seqs {

  import opened Types

  ghost predicate Distinct<T>(s: seq<T>) {
    forall i, j :: 0 <= i < j < |s| ==> s[i] != s[j]
  }

  /** The elements of `s` other than `x`, in their original order
      (`s.retain(|&y| y != x)`). */
  function Without<T(==,!new)>(s: seq<T>, x: T): (r: seq<T>)
    ensures x !in r
    ensures forall y :: y in r <==> y in s && y != x
    ensures |r| <= |s|
    ensures x !in s ==> r == s
    ensures Distinct(s) ==> Distinct(r)
  {
    if |s| == 0 then []
    else if s[0] == x then Without(s[1..], x)
    else
      var rest := Without(s[1..], x);
      assert s == [s[0]] + s[1..];
      assert Distinct(s) ==> s[0] !in rest;
      [s[0]] + rest
  }

  /** In a duplicate-free sequence, removing `x` deletes exactly the one
      position holding it and keeps everything else in place. */
  lemma {:induction false} WithoutDeletesPosition<T(!new)>(s: seq<T>, i: nat)
    requires Distinct(s)
    requires i < |s|
    ensures Without(s, s[i]) == s[..i] + s[i + 1..]
    decreases i
  {
    if i == 0 {
      assert s[0] !in s[1..];
      assert Without(s[1..], s[0]) == s[1..];
    } else {
      assert Distinct(s[1..]);
      WithoutDeletesPosition(s[1..], i - 1);
      assert s[1..][i - 1] == s[i];
      assert s[1..][..i - 1] == s[1..i];
      assert s[1..][i..] == s[i + 1..];
      assert s[..i] == [s[0]] + s[1..i];
    }
  }

  /** The position of the first occurrence of `x` in `s`, if any. */
  function Position<T(==)>(s: seq<T>, x: T): (r: Option<nat>)
    ensures r.Some? <==> x in s
    ensures r.Some? ==> r.value < |s| && s[r.value] == x && x !in s[..r.value]
  {
    if |s| == 0 then None
    else if s[0] == x then Some(0)
    else
      var p := Position(s[1..], x);
      if p.None? then None
      else
        assert s[..p.value + 1] == [s[0]] + s[1..][..p.value];
        Some(p.value + 1)
  }
}

=== FILE: tab.dfy ===
/** The pure parts of drawing a tab: the label it shows, its shortening to
    the tab width, and what a click on it asks for. */
module BrowserTab {

  import opened Types
  import opened Windows
  import Commands

  /** U+2026 HORIZONTAL ELLIPSIS. */
  const Ellipsis: char := '\U{2026}'

  /** Labels are shortened to this many characters. */
  const LabelLength: nat := 16

  /** `max_length.saturating_sub(1)`. */
  function SaturatingPred(n: nat): (r: nat)
    ensures n == 0 ==> r == 0
    ensures n > 0 ==> r + 1 == n
  {
    if n == 0 then 0 else n - 1
  }

  /** Keep text that fits; otherwise keep the first `maxLength - 1`
      characters (none when `maxLength` is 0) and mark the cut with an
      ellipsis. Lengths count characters, not bytes. */
  function TruncateWithEllipsis(input: string, maxLength: nat): (r: string)
    ensures |input| <= maxLength ==> r == input
    ensures |input| > maxLength ==>
      && |r| == (if maxLength == 0 then 1 else maxLength)
      && r[|r| - 1] == Ellipsis
      && r[..|r| - 1] <= input
  {
    if |input| > maxLength then input[..SaturatingPred(maxLength)] + [Ellipsis]
    else input
  }

  /** The result never exceeds the limit, except that a limit of 0 still
      shows the ellipsis. */
  lemma TruncateBound(input: string, maxLength: nat)
    ensures |TruncateWithEllipsis(input, maxLength)| <= if maxLength == 0 then 1 else maxLength
    ensures |TruncateWithEllipsis(input, maxLength)| <= |input|
  {
  }

  /** Shortening twice to the same width is shortening once. */
  lemma TruncateIdempotent(input: string, maxLength: nat)
    ensures TruncateWithEllipsis(TruncateWithEllipsis(input, maxLength), maxLength)
         == TruncateWithEllipsis(input, maxLength)
  {
    var once := TruncateWithEllipsis(input, maxLength);
    if |input| > maxLength && maxLength == 0 {
      assert once == [Ellipsis];
      assert once[..0] + [Ellipsis] == once;
    }
  }

  /** Either the text is kept whole, or it is cut at a prefix and the
      ellipsis is the only character added. */
  lemma TruncateKeepsPrefix(input: string, maxLength: nat)
    ensures var r := TruncateWithEllipsis(input, maxLength);
      r == input || (|r| > 0 && r[..|r| - 1] <= input && r[|r| - 1] == Ellipsis && |input| > maxLength)
  {
  }

  /** A non-empty page title, else the address, else "New Tab". */
  function TabLabel(title: Option<string>, url: Option<Url>): (r: string)
    ensures title.Some? && title.value != [] ==> r == title.value
    ensures (title.None? || title.value == []) && url.Some? ==> r == url.value.serialization
    ensures (title.None? || title.value == []) && url.None? ==> r == "New Tab"
  {
    if title.Some? && title.value != [] then title.value
    else if url.Some? then url.value.serialization
    else "New Tab"
  }

  /** The label is empty only when there is no title and the address
      serializes to the empty string. */
  lemma TabLabelNonEmpty(title: Option<string>, url: Option<Url>)
    ensures TabLabel(title, url) == [] <==>
      (title.None? || title.value == []) && url.Some? && url.value.serialization == []
  {
  }

  /** The text drawn in the tab. */
  function DisplayedLabel(title: Option<string>, url: Option<Url>): (r: string)
    ensures |r| <= LabelLength
    ensures |TabLabel(title, url)| <= LabelLength ==> r == TabLabel(title, url)
  {
    TruncateWithEllipsis(TabLabel(title, url), LabelLength)
  }

  /** What happened to the tab's two widgets this frame. */
  datatype Clicks = Clicks(
    closeClicked: bool,
    closeMiddleClicked: bool,
    tabMiddleClicked: bool,
    tabClicked: bool)

  datatype TabAction = CloseTab | ActivateTab | NoAction

  /** Closing wins over activating, and only an inactive tab is activated. */
  function ClickDecision(active: bool, c: Clicks): (r: TabAction)
    ensures r.CloseTab? <==> c.closeClicked || c.closeMiddleClicked || c.tabMiddleClicked
    ensures r.ActivateTab? <==> !r.CloseTab? && !active && c.tabClicked
    ensures r.NoAction? <==> !r.CloseTab? && !r.ActivateTab?
  {
    if c.closeClicked || c.closeMiddleClicked || c.tabMiddleClicked then CloseTab
    else if !active && c.tabClicked then ActivateTab
    else NoAction
  }

  predicate IsActive(w: Window, view: ViewId) {
    match ActiveWebview(w)
    case None => false
    case Some(v) => v.id == view
  }

  /** Apply a click on the tab of `view`: a close queues `CloseWebView` for
      the next tick; an activation happens at once. */
  function HandleTabClick(w: Window, view: ViewId, c: Clicks): (r: Window)
    requires view in w.webviews.creationOrder
    ensures ClickDecision(IsActive(w, view), c).CloseTab? ==>
      r == w.(commands := w.commands + [CloseWebView(view)])
    ensures ClickDecision(IsActive(w, view), c).ActivateTab? ==> r == ActivateWebview(w, view)
    ensures ClickDecision(IsActive(w, view), c).ActivateTab? ==>
      r.webviews.activeId == Some(view) && r.commands == w.commands && r.needsUpdate
    ensures ClickDecision(IsActive(w, view), c).NoAction? ==> r == w
    ensures Views(r) == Views(w) && (Valid(w) ==> Valid(r))
  {
    match ClickDecision(IsActive(w, view), c)
    case CloseTab => w.(commands := w.commands + [CloseWebView(view)])
    case ActivateTab => ActivateWebview(w, view)
    case NoAction => w
  }

  /** A close request never activates anything: the active view stays as
      it was until the queued command is applied. */
  lemma CloseNeverActivates(w: Window, view: ViewId, c: Clicks)
    requires view in w.webviews.creationOrder
    requires c.closeClicked || c.closeMiddleClicked || c.tabMiddleClicked
    ensures HandleTabClick(w, view, c).webviews == w.webviews
    ensures HandleTabClick(w, view, c).log == w.log
  {
  }

  /** Clicking the tab that is already active does nothing. */
  lemma ClickOnActiveTabIsIgnored(w: Window, view: ViewId)
    requires view in w.webviews.creationOrder
    requires IsActive(w, view)
    ensures HandleTabClick(w, view, Clicks(false, false, false, true)) == w
  {
  }

  /** With nothing else queued, a close click followed by the window's
      next batch of commands removes the view. */
  lemma CloseClickThenApplyRemovesView(w: Window, view: ViewId, c: Clicks,
                                       cfg: Commands.Config, next: ViewId)
    requires view in w.webviews.creationOrder
    requires w.commands == []
    requires c.closeClicked || c.closeMiddleClicked || c.tabMiddleClicked
    ensures var clicked := HandleTabClick(w, view, c);
      var applied := Commands.ApplyCommands(clicked.(commands := []), clicked.commands, cfg, next);
      !ContainsWebview(applied.window, view) && Views(applied.window) == Views(w) - {view}
  {
    var clicked := HandleTabClick(w, view, c);
    assert clicked.commands == [CloseWebView(view)];
    var step := Commands.ApplyCommand(clicked.(commands := []), CloseWebView(view), cfg, next);
    assert Commands.ApplyCommands(step.window, [], cfg, step.nextViewId).window == step.window;
  }
}

=== FILE: text.dfy ===
/** The string operations the location-bar resolver relies on: `str::trim`,
    `str::split(char)` and `str::replace("%s", ..)`. Strings are sequences of
    Unicode scalar values, as Rust's `chars()` sees them. */
module Text {

  /** The characters with the Unicode White_Space property, which is what
      `str::trim` strips from both ends. */
  predicate IsWhitespace(c: char) {
    || ('\U{9}' <= c <= '\U{D}')
    || c == ' '
    || c == '\U{85}'
    || c == '\U{A0}'
    || c == '\U{1680}'
    || ('\U{2000}' <= c <= '\U{200A}')
    || c == '\U{2028}'
    || c == '\U{2029}'
    || c == '\U{202F}'
    || c == '\U{205F}'
    || c == '\U{3000}'
  }

  predicate StartsWith(s: string, c: char) {
    |s| > 0 && s[0] == c
  }

  /** Length of the longest all-whitespace prefix of `s`. */
  function LeadingWhitespace(s: string): (n: nat)
    ensures n <= |s|
    ensures forall k :: 0 <= k < n ==> IsWhitespace(s[k])
    ensures n == |s| || !IsWhitespace(s[n])
  {
    if |s| == 0 || !IsWhitespace(s[0]) then 0
    else 1 + LeadingWhitespace(s[1..])
  }

  /** Length of the longest all-whitespace suffix of `s`. */
  function TrailingWhitespace(s: string): (n: nat)
    ensures n <= |s|
    ensures forall k :: |s| - n <= k < |s| ==> IsWhitespace(s[k])
    ensures n == |s| || !IsWhitespace(s[|s| - n - 1])
  {
    if |s| == 0 || !IsWhitespace(s[|s| - 1]) then 0
    else 1 + TrailingWhitespace(s[..|s| - 1])
  }

  /** `str::trim`: the slice left after stripping whitespace from both ends. */
  function Trim(s: string): (r: string)
    ensures |r| == 0 || (!IsWhitespace(r[0]) && !IsWhitespace(r[|r| - 1]))
    ensures LeadingWhitespace(s) + |r| <= |s|
    ensures r == s[LeadingWhitespace(s)..LeadingWhitespace(s) + |r|]
    ensures forall k :: 0 <= k < |s| && !(LeadingWhitespace(s) <= k < LeadingWhitespace(s) + |r|)
                        ==> IsWhitespace(s[k])
  {
    var front := LeadingWhitespace(s);
    var rest := s[front..];
    var back := TrailingWhitespace(rest);
    assert forall k :: front <= k < |s| ==> s[k] == rest[k - front];
    rest[..|rest| - back]
  }

  /** Text with no whitespace at either end is its own trim. */
  lemma TrimmedIsFixed(s: string)
    requires |s| == 0 || (!IsWhitespace(s[0]) && !IsWhitespace(s[|s| - 1]))
    ensures Trim(s) == s
  {
    assert LeadingWhitespace(s) == 0;
    assert TrailingWhitespace(s) == 0;
  }

  /** Trimming twice is trimming once. */
  lemma TrimIdempotent(s: string)
    ensures Trim(Trim(s)) == Trim(s)
  {
    TrimmedIsFixed(Trim(s));
  }

  /** Number of times `c` occurs in `s`. */
  function Occurrences(s: string, c: char): nat {
    if |s| == 0 then 0
    else (if s[0] == c then 1 else 0) + Occurrences(s[1..], c)
  }

  lemma {:induction false} OccurrencesPositive(s: string, c: char)
    ensures Occurrences(s, c) > 0 <==> c in s
  {
    if |s| > 0 {
      OccurrencesPositive(s[1..], c);
      assert s == [s[0]] + s[1..];
    }
  }

  /** `s.split(sep)`: the pieces between occurrences of `sep`, empty pieces
      included, so the empty string splits into one empty piece. */
  function Split(s: string, sep: char): (parts: seq<string>)
    ensures |parts| >= 1
  {
    if |s| == 0 then [""]
    else
      var rest := Split(s[1..], sep);
      if s[0] == sep then [""] + rest
      else [[s[0]] + rest[0]] + rest[1..]
  }

  /** Joining pieces back together with `sep` between them. */
  function Join(parts: seq<string>, sep: char): string
    requires |parts| >= 1
  {
    if |parts| == 1 then parts[0]
    else parts[0] + [sep] + Join(parts[1..], sep)
  }

  /** A split has one piece more than there are separators. */
  lemma {:induction false} SplitCount(s: string, sep: char)
    ensures |Split(s, sep)| == Occurrences(s, sep) + 1
  {
    if |s| > 0 {
      SplitCount(s[1..], sep);
    }
  }

  /** No piece of a split contains the separator. */
  lemma {:induction false} SplitPiecesFree(s: string, sep: char)
    ensures forall k :: 0 <= k < |Split(s, sep)| ==> sep !in Split(s, sep)[k]
  {
    if |s| > 0 {
      SplitPiecesFree(s[1..], sep);
      var rest := Split(s[1..], sep);
      if s[0] != sep {
        assert sep !in [s[0]] + rest[0];
      }
    }
  }

  /** Joining the pieces of a split restores the original text. */
  lemma {:induction false} JoinSplit(s: string, sep: char)
    ensures Join(Split(s, sep), sep) == s
  {
    if |s| > 0 {
      JoinSplit(s[1..], sep);
      var rest := Split(s[1..], sep);
      if s[0] == sep {
        assert Split(s, sep)[1..] == rest;
        assert s == [sep] + s[1..];
      } else if |rest| == 1 {
        assert s == [s[0]] + s[1..];
      } else {
        var parts := Split(s, sep);
        assert parts[1..] == rest[1..];
        assert Join(parts, sep) == [s[0]] + (rest[0] + [sep] + Join(rest[1..], sep));
        assert s == [s[0]] + s[1..];
      }
    }
  }

  /** True when the two-character token `%s` starts at position `i`. */
  predicate TokenAt(s: string, i: nat) {
    i + 1 < |s| && s[i] == '%' && s[i + 1] == 's'
  }

  /** `s.replace("%s", term)`: every `%s`, scanning left to right without
      overlap, replaced by `term`. */
  function Substitute(s: string, term: string): (r: string)
    ensures (forall i :: 0 <= i < |s| ==> s[i] != '%') ==> r == s
  {
    if |s| < 2 then s
    else if TokenAt(s, 0) then term + Substitute(s[2..], term)
    else [s[0]] + Substitute(s[1..], term)
  }

  /** A template with no `%s` token is left unchanged. */
  lemma {:induction false} SubstituteNoToken(s: string, term: string)
    requires forall i :: 0 <= i < |s| ==> !TokenAt(s, i)
    ensures Substitute(s, term) == s
  {
    if |s| >= 2 {
      assert !TokenAt(s, 0);
      assert forall i :: 0 <= i < |s| - 1 ==> TokenAt(s[1..], i) == TokenAt(s, i + 1);
      SubstituteNoToken(s[1..], term);
      assert s == [s[0]] + s[1..];
    }
  }

  /** With a token-free prefix, the first `%s` after it is the first one
      replaced. */
  lemma {:induction false} SubstituteAfterPrefix(prefix: string, suffix: string, term: string)
    requires '%' !in prefix
    ensures Substitute(prefix + "%s" + suffix, term) == prefix + term + Substitute(suffix, term)
  {
    var s := prefix + "%s" + suffix;
    if |prefix| == 0 {
      assert s == "%s" + suffix;
      assert TokenAt(s, 0);
      assert s[2..] == suffix;
      assert Substitute(s, term) == term + Substitute(suffix, term);
    } else {
      assert s[0] == prefix[0];
      assert s[1..] == prefix[1..] + "%s" + suffix;
      assert Substitute(s, term) == [s[0]] + Substitute(s[1..], term);
      SubstituteAfterPrefix(prefix[1..], suffix, term);
      assert prefix == [prefix[0]] + prefix[1..];
    }
  }
}

=== FILE: types.dfy ===
/** Vocabulary shared by every layer of the shell: identifiers, the opaque
    engine handles, the calls the shell issues to the engine and platform
    layers, and the commands the user interface produces. */
module Types {

  datatype Option<+T> = None | Some(value: T)

  /** Identifier of a top-level browsing context, allocated by the engine. */
  type ViewId = nat

  /** Identifier of a platform window. */
  type WindowId = nat

  /** Identifier of an embedder control (a select popup, a colour picker, ...). */
  type ControlId = nat

  /** A parsed address, known to the shell only through its serialization. */
  datatype Url = Url(serialization: string)

  /** The engine's address parser (URL Standard, section 4.4 "URL parsing")
      and its Public Suffix List query. The shell never looks inside either,
      so they are carried as uninterpreted functions. */
  datatype UrlSyntax = UrlSyntax(parse: string -> Option<Url>, isRegDomain: string -> bool)

  /** The engine's handle to a view; the shell only ever asks it for its id. */
  datatype View = View(id: ViewId)

  /** A call the shell makes on a view handle or on its platform window. */
  datatype Effect =
    | ShowView(view: ViewId)
    | HideView(view: ViewId)
    | FocusView(view: ViewId)
    | BlurView(view: ViewId)
    | BuildView(view: ViewId, url: Url)
    | LoadUrl(view: ViewId, url: Url)
    | GoBack(view: ViewId, steps: nat)
    | GoForward(view: ViewId, steps: nat)
    | ReloadView(view: ViewId)
    | DismissControls(view: ViewId)
    | ShowControl(view: ViewId, control: ControlId)
    | HideControl(view: ViewId, control: ControlId)
    | UpdateUserInterface
    | RequestRepaint

  /** A command produced by the user interface, applied once per tick. */
  datatype Command =
    | Go(location: string)
    | Back
    | Forward
    | Reload
    | NewWebView
    | CloseWebView(id: ViewId)
}

=== FILE: window.dfy ===
/** A shell window: one view collection, the dirty flags that tell the
    coordinator what to do at the end of a tick, the favicon uploads still
    owed to the user interface, and the commands the user interface has
    queued since the last tick. `log` records, oldest first, the calls the
    window has made on its views and on its platform window. */
module Windows {

  import opened Types
  import WebViews
  import Seqs

  datatype Window = Window(
    id: WindowId,
    webviews: WebViews.Collection,
    closeScheduled: bool,
    needsUpdate: bool,
    needsRepaint: bool,
    pendingFaviconLoads: seq<ViewId>,
    commands: seq<Command>,
    log: seq<Effect>)

  ghost predicate Valid(w: Window) {
    WebViews.Valid(w.webviews)
  }

  /** The ids of the views the window holds. */
  function Views(w: Window): set<ViewId> {
    w.webviews.webviews.Keys
  }

  /** The calls `r` has made since it was `w`. */
  function NewEffects(w: Window, r: Window): seq<Effect>
    requires |w.log| <= |r.log|
  {
    r.log[|w.log|..]
  }

  /** Everything apart from the flags and the log is as it was. */
  ghost predicate SameContents(w: Window, r: Window) {
    && r.id == w.id
    && r.webviews == w.webviews
    && r.closeScheduled == w.closeScheduled
    && r.pendingFaviconLoads == w.pendingFaviconLoads
    && r.commands == w.commands
  }

  /** A freshly opened window: no views, nothing pending, no flag set. */
  function New(id: WindowId): (w: Window)
    ensures Valid(w) && ShouldClose(w) && Views(w) == {}
    ensures !w.needsUpdate && !w.needsRepaint && !w.closeScheduled
  {
    Window(id, WebViews.Empty(), false, false, false, [], [], [])
  }

  /** A window is closed at the end of a tick once it has no views left or a
      close was asked for. */
  predicate ShouldClose(w: Window)
    ensures ShouldClose(w) <==> Views(w) == {} || w.closeScheduled
  {
    WebViews.IsEmpty(w.webviews) || w.closeScheduled
  }

  lemma ShouldCloseIff(w: Window)
    requires Valid(w)
    ensures ShouldClose(w) <==> |w.webviews.creationOrder| == 0 || w.closeScheduled
  {
    WebViews.EmptyIffNoOrder(w.webviews);
  }

  predicate ContainsWebview(w: Window, id: ViewId)
    ensures ContainsWebview(w, id) <==> id in Views(w)
  {
    WebViews.Contains(w.webviews, id)
  }

  function SetNeedsUpdate(w: Window): (r: Window)
    ensures r.needsUpdate && r.needsRepaint == w.needsRepaint
    ensures SameContents(w, r) && r.log == w.log
  {
    w.(needsUpdate := true)
  }

  function SetNeedsRepaint(w: Window): (r: Window)
    ensures r.needsRepaint && r.needsUpdate == w.needsUpdate
    ensures SameContents(w, r) && r.log == w.log
  {
    w.(needsRepaint := true)
  }

  /** Ask for the window to be closed at the end of the next tick. */
  function ScheduleClose(w: Window): (r: Window)
    ensures r.closeScheduled && ShouldClose(r)
    ensures r.id == w.id && r.webviews == w.webviews && r.log == w.log
    ensures r.pendingFaviconLoads == w.pendingFaviconLoads && r.commands == w.commands
    ensures r.needsUpdate == w.needsUpdate && r.needsRepaint == w.needsRepaint
  {
    w.(closeScheduled := true)
  }

  /** Add a view; both the interface and the display need refreshing. */
  function AddWebview(w: Window, view: View): (r: Window)
    ensures ContainsWebview(r, view.id)
    ensures Views(r) == Views(w) + {view.id}
    ensures r.webviews == WebViews.Add(w.webviews, view)
    ensures r.needsUpdate && r.needsRepaint
    ensures r.id == w.id && r.closeScheduled == w.closeScheduled && r.log == w.log
    ensures r.pendingFaviconLoads == w.pendingFaviconLoads && r.commands == w.commands
    ensures Valid(w) && !ContainsWebview(w, view.id) ==> Valid(r)
  {
    var added := w.(webviews := WebViews.Add(w.webviews, view));
    SetNeedsRepaint(SetNeedsUpdate(added))
  }

  /** Make `target` the active view: it is shown and focused, every other
      view hidden and blurred, and the interface needs refreshing. */
  function ActivateWebview(w: Window, target: ViewId): (r: Window)
    requires target in w.webviews.creationOrder
    ensures r.webviews.activeId == Some(target)
    ensures Views(r) == Views(w)
    ensures r.webviews.creationOrder == w.webviews.creationOrder
    ensures r.needsUpdate && r.needsRepaint == w.needsRepaint
    ensures r.log == w.log + WebViews.ActivationEffects(w.webviews, target)
    ensures r.id == w.id && r.closeScheduled == w.closeScheduled
    ensures r.pendingFaviconLoads == w.pendingFaviconLoads && r.commands == w.commands
    ensures Valid(w) ==> Valid(r)
  {
    var activated := w.(webviews := WebViews.Activate(w.webviews, target),
                        log := w.log + WebViews.ActivationEffects(w.webviews, target));
    SetNeedsUpdate(activated)
  }

  function ActivateWebviewByIndex(w: Window, index: nat): (r: Window)
    requires index < |w.webviews.creationOrder|
    ensures r.webviews.activeId == Some(w.webviews.creationOrder[index])
    ensures Views(r) == Views(w)
    ensures r.needsUpdate && r.needsRepaint == w.needsRepaint
    ensures r == ActivateWebview(w, w.webviews.creationOrder[index])
    ensures r.log == w.log + WebViews.ActivationEffects(w.webviews, w.webviews.creationOrder[index])
    ensures r.id == w.id && r.closeScheduled == w.closeScheduled
    ensures r.pendingFaviconLoads == w.pendingFaviconLoads && r.commands == w.commands
    ensures Valid(w) ==> Valid(r)
  {
    ActivateWebview(w, w.webviews.creationOrder[index])
  }

  function ActiveWebview(w: Window): (r: Option<View>)
    ensures r.Some? ==> ContainsWebview(w, r.value.id) || !Valid(w)
    ensures Valid(w) ==> (r.Some? <==> w.webviews.activeId.Some?)
    ensures Valid(w) && r.Some? ==> r.value.id == w.webviews.activeId.value
  {
    WebViews.Active(w.webviews)
  }

  /** The position of the active view among the views in creation order. */
  function ActiveWebviewIndex(w: Window): (r: Option<nat>)
    ensures w.webviews.activeId.None? ==> r.None?
    ensures r.Some? ==>
      && w.webviews.activeId.Some?
      && r.value < |WebViews.AllInCreationOrder(w.webviews)|
      && WebViews.AllInCreationOrder(w.webviews)[r.value] == w.webviews.activeId.value
    ensures (w.webviews.activeId.Some? && w.webviews.activeId.value in w.webviews.creationOrder
             && ContainsWebview(w, w.webviews.activeId.value)) ==> r.Some?
  {
    match w.webviews.activeId
    case None => None
    case Some(active) => Seqs.Position(WebViews.AllInCreationOrder(w.webviews), active)
  }

  /** In a valid window the index is defined exactly when a view is active,
      and it locates that view in the creation order. */
  lemma ActiveIndexLocatesActive(w: Window)
    requires Valid(w)
    ensures ActiveWebviewIndex(w).Some? <==> w.webviews.activeId.Some?
    ensures ActiveWebviewIndex(w).Some? ==>
      && ActiveWebviewIndex(w).value < |w.webviews.creationOrder|
      && w.webviews.creationOrder[ActiveWebviewIndex(w).value] == w.webviews.activeId.value
  {
    WebViews.AllInCreationOrderOfValid(w.webviews);
  }

  /** Activating by the index of the active view activates the same view. */
  lemma ActivateAtActiveIndex(w: Window)
    requires Valid(w)
    requires w.webviews.activeId.Some?
    ensures ActiveWebviewIndex(w).Some?
    ensures ActiveWebviewIndex(w).value < |w.webviews.creationOrder|
    ensures ActivateWebviewByIndex(w, ActiveWebviewIndex(w).value).webviews.activeId == w.webviews.activeId
  {
    ActiveIndexLocatesActive(w);
  }

  /** End-of-tick refresh. The interface is refreshed only when it needs to
      be; its answer (`uiWantsRepaint`) and the repaint flag decide whether a
      repaint is requested. Both flags are read and reset here. */
  function UpdateAndRequestRepaintIfNecessary(w: Window, uiWantsRepaint: bool): (r: Window)
    ensures !r.needsUpdate && !r.needsRepaint
    ensures SameContents(w, r)
    ensures |w.log| <= |r.log| && r.log[..|w.log|] == w.log
    ensures UpdateUserInterface in NewEffects(w, r) <==> w.needsUpdate
    ensures RequestRepaint in NewEffects(w, r) <==> w.needsRepaint || (w.needsUpdate && uiWantsRepaint)
    ensures |NewEffects(w, r)| <= 2
    ensures NewEffects(w, r)
      == (if w.needsUpdate then [UpdateUserInterface] else [])
      + (if w.needsRepaint || (w.needsUpdate && uiWantsRepaint) then [RequestRepaint] else [])
    ensures r.log == w.log
      + (if w.needsUpdate then [UpdateUserInterface] else [])
      + (if w.needsRepaint || (w.needsUpdate && uiWantsRepaint) then [RequestRepaint] else [])
  {
    var updatedUserInterface := w.needsUpdate && uiWantsRepaint;
    var consulted := if w.needsUpdate then [UpdateUserInterface] else [];
    var repaint := if updatedUserInterface || w.needsRepaint then [RequestRepaint] else [];
    var r := w.(needsUpdate := false, needsRepaint := false, log := w.log + consulted + repaint);
    assert NewEffects(w, r) == consulted + repaint;
    r
  }

  /** The interface's answer matters only when the interface was due for a
      refresh: otherwise it is never consulted. */
  lemma UiConsultedOnlyWhenNeeded(w: Window)
    requires !w.needsUpdate
    ensures UpdateAndRequestRepaintIfNecessary(w, true) == UpdateAndRequestRepaintIfNecessary(w, false)
  {
  }

  /** Close one view. An id the window does not hold is ignored outright;
      otherwise the view is removed (possibly activating the newest
      survivor), its embedder controls are dismissed and both flags set. */
  function CloseWebview(w: Window, id: ViewId): (r: Window)
    ensures !ContainsWebview(r, id)
    ensures Views(r) == Views(w) - {id}
    ensures !ContainsWebview(w, id) ==> r == w
    ensures ContainsWebview(w, id) ==>
      && r.needsUpdate && r.needsRepaint
      && r.webviews == WebViews.Remove(w.webviews, id).0
      && r.log == w.log + WebViews.RemovalEffects(w.webviews, id) + [DismissControls(id)]
    ensures r.id == w.id && r.closeScheduled == w.closeScheduled
    ensures r.pendingFaviconLoads == w.pendingFaviconLoads && r.commands == w.commands
    ensures Valid(w) ==> Valid(r)
  {
    if !WebViews.Contains(w.webviews, id) then w
    else
      var removal := WebViews.Remove(w.webviews, id);
      var detached := w.(webviews := removal.0,
                         log := w.log + WebViews.RemovalEffects(w.webviews, id) + [DismissControls(id)]);
      SetNeedsRepaint(SetNeedsUpdate(detached))
  }

  /** A view has a new favicon: queue its upload and repaint. */
  function NotifyFaviconChanged(w: Window, id: ViewId): (r: Window)
    ensures r.pendingFaviconLoads == w.pendingFaviconLoads + [id]
    ensures r.needsRepaint && r.needsUpdate == w.needsUpdate
    ensures r.webviews == w.webviews && r.log == w.log && r.commands == w.commands
    ensures r.id == w.id && r.closeScheduled == w.closeScheduled
  {
    SetNeedsRepaint(w.(pendingFaviconLoads := w.pendingFaviconLoads + [id]))
  }

  /** Hand over the queued favicon uploads, oldest first, and empty the queue. */
  function TakePendingFaviconLoads(w: Window): (r: (seq<ViewId>, Window))
    ensures r.0 == w.pendingFaviconLoads
    ensures r.1.pendingFaviconLoads == []
    ensures r.1 == w.(pendingFaviconLoads := [])
  {
    (w.pendingFaviconLoads, w.(pendingFaviconLoads := []))
  }

  /** Every favicon notified between two takes is handed over by the second,
      in notification order. */
  lemma {:induction false} FaviconsTakenInOrder(w: Window, ids: seq<ViewId>)
    ensures TakePendingFaviconLoads(NotifyAll(w, ids)).0 == w.pendingFaviconLoads + ids
    ensures TakePendingFaviconLoads(NotifyAll(w, ids)).1.pendingFaviconLoads == []
    decreases |ids|
  {
    if |ids| > 0 {
      var last := ids[|ids| - 1];
      FaviconsTakenInOrder(w, ids[..|ids| - 1]);
      assert ids == ids[..|ids| - 1] + [last];
    }
  }

  /** Favicon notifications for `ids`, one after another. */
  function NotifyAll(w: Window, ids: seq<ViewId>): Window
    decreases |ids|
  {
    if |ids| == 0 then w
    else NotifyFaviconChanged(NotifyAll(w, ids[..|ids| - 1]), ids[|ids| - 1])
  }

  /** Hand over the queued user-interface commands, oldest first, and start
      a new buffer. */
  function TakeCommands(w: Window): (r: (seq<Command>, Window))
    ensures r.0 == w.commands
    ensures r.1 == w.(commands := [])
  {
    (w.commands, w.(commands := []))
  }

  /** Build a view for `url` with the engine-supplied id and add it. */
  function CreateToplevelWebview(w: Window, id: ViewId, url: Url): (r: Window)
    ensures ContainsWebview(r, id) && Views(r) == Views(w) + {id}
    ensures r.webviews.creationOrder == w.webviews.creationOrder + [id]
    ensures r.needsUpdate && r.needsRepaint
    ensures r.log == w.log + [BuildView(id, url)]
    ensures r.id == w.id && r.closeScheduled == w.closeScheduled
    ensures r.pendingFaviconLoads == w.pendingFaviconLoads && r.commands == w.commands
    ensures Valid(w) && !ContainsWebview(w, id) ==> Valid(r)
  {
    var built := w.(log := w.log + [BuildView(id, url)]);
    var r := AddWebview(built, View(id));
    assert r.webviews.creationOrder == r.webviews.creationOrder[..|w.webviews.creationOrder|] + [id];
    r
  }

  /** Build a view for `url`, add it and make it the active one. */
  function CreateAndActivateToplevelWebview(w: Window, id: ViewId, url: Url): (r: Window)
    ensures ContainsWebview(r, id) && Views(r) == Views(w) + {id}
    ensures r.webviews.activeId == Some(id)
    ensures r.webviews.creationOrder == w.webviews.creationOrder + [id]
    ensures r.needsUpdate && r.needsRepaint
    ensures |r.log| > |w.log| && r.log[..|w.log| + 1] == w.log + [BuildView(id, url)]
    ensures r.log[|w.log|] == BuildView(id, url)
    ensures r.log == w.log + [BuildView(id, url)]
      + WebViews.ActivationEffects(CreateToplevelWebview(w, id, url).webviews, id)
    ensures r.needsRepaint && r.id == w.id && r.closeScheduled == w.closeScheduled
    ensures r.pendingFaviconLoads == w.pendingFaviconLoads && r.commands == w.commands
    ensures Valid(w) && !ContainsWebview(w, id) ==> Valid(r) && ActiveWebview(r) == Some(View(id))
  {
    var created := CreateToplevelWebview(w, id, url);
    var r := ActivateWebview(created, id);
    assert r.log[..|w.log| + 1] == created.log;
    assert r.log[|w.log|] == created.log[|w.log|];
    r
  }

  /** Show an embedder control for a view; both flags are set. */
  function ShowEmbedderControl(w: Window, view: ViewId, control: ControlId): (r: Window)
    ensures r.needsUpdate && r.needsRepaint
    ensures r.log == w.log + [ShowControl(view, control)]
    ensures SameContents(w, r)
  {
    SetNeedsRepaint(SetNeedsUpdate(w.(log := w.log + [ShowControl(view, control)])))
  }

  /** Hide an embedder control of a view; both flags are set. */
  function HideEmbedderControl(w: Window, view: ViewId, control: ControlId): (r: Window)
    ensures r.needsUpdate && r.needsRepaint
    ensures r.log == w.log + [HideControl(view, control)]
    ensures SameContents(w, r)
  {
    SetNeedsRepaint(SetNeedsUpdate(w.(log := w.log + [HideControl(view, control)])))
  }
}
